=== FILE: README.md ===
# Neo Qiss portfolio: shop, ledger, wizard and diagrams in Dafny

This project models the stateful core of a portfolio web page as pure
functions over immutable datatypes. It also proves what the page promises
about that core.

- **Merch store** (`components/Shop.tsx`). This covers:
  - the product catalogue and its category tabs;
  - a cart of line items keyed by the string `${id}-${size}-${color}`. The cart supports add-or-increment, remove, a quantity change with a floor of one, and a confirmed clear;
  - the totals the cart drawer and the navigation badge derive: subtotal, amount still missing for free shipping, and unit count;
  - a mock sign-in that produces a fresh profile, and sign-out;
  - a wishlist toggle that is gated on being signed in, and the wishlist drawer;
  - checkout, which snapshots the cart into an order at the front of the history and empties the cart;
  - the product quick view's add button;
  - the single notification slot.
- **Accounting simulator** (`components/Interactive.tsx`):
  - seven balances in three groups;
  - five canned transactions, three of them guarded;
  - a journal of the five most recent entries, newest first.

  Every transaction is checked against an independent double-entry posting rule (`Ledger.Post`), and from that rule the accounting equation assets = liabilities + equity follows.
- **Donation wizard** (`components/Interactive.tsx`): six steps (amount, details, method, card, processing, success). The amount gates the way out of step 1.
- **Diagrams** (`Diagrams.tsx`):
  - the eight-node loop whose nodes toggle on and off and which shows "GENIUS" when the list is eight long;
  - the four-stage pipeline cycle;
  - the per-mode activity split.

Modules: `Basics` (option type, order-preserving filter, element removal, toggle), `Catalog`,
`Cart`, `Shop`, `Ledger`, `Patron`, `Diagrams`. Every timer of the page is
one atomic transition. Random numbers, the clock, the date and the browser's
`confirm()` dialog are parameters.

Behaviour of the code that the proofs make explicit:

- **Toggling twice restores the set, not always the list.** On the wishlist and on the loop diagram, toggling the same element twice gives back the same set of elements. The very same list comes back only when the element was absent or last. Toggling 0 twice in `[0, 1]` gives `[1, 0]`. Order is never visible: the wishlist drawer lists products in catalogue order, and the loop diagram colours nodes by membership.
- **The cart key is not injective in general.** `"socks-aa"` with size `"6-9"` and `"socks"` with size `"aa-6-9"` give the same key. Over the shipped catalogue it is injective, because colour names hold no dash and the four product ids start with different letters.
- **Order numbers pad on the right.** The draw is padded with zeros on the right to nine characters, so draws 5 and 500000 both give `NQ-500000`.
- **The quick view's colour fallback can never supply a colour.** The guard allows a missing colour only for a product with no colours, and reading that product's first colour then fails. None of the shipped products is colourless.
- **The checkout handler has no empty-cart check.** The empty cart is excluded only by the disabled button (components/Shop.tsx:1216), so the handler is modelled as written.

## Model

| member | source | states |
|---|---|---|
| `Basics.Filter` | components/Shop.tsx:1287 | `Array.filter`: the result holds exactly the input's elements that pass the test and is no longer than the input |
| `Basics.Without` | Diagrams.tsx:18 | `filter(y => y !== x)`: the result holds exactly the input's elements other than x and is no longer than the input |
| `Basics.WithoutIsFilter` | components/Shop.tsx:1343 | dropping x is the same list as filtering with the test "differs from x" |
| `Basics.Toggle` | Diagrams.tsx:16-21 | the element ends up present iff it was absent; every other element's membership is unchanged; an absent element is appended at the end with the prefix intact |
| `Basics.ToggleNoDup` | components/Shop.tsx:1338-1348 | toggling keeps a duplicate-free list duplicate-free |
| `Basics.ToggleTwice` | Diagrams.tsx:16-21 | toggling twice restores the set of elements always, and the exact list when the element was absent, or last in a duplicate-free list |
| `Basics.ToggleTwiceCanReorder` | Diagrams.tsx:16-21 | toggling 0 twice in [0, 1] yields [1, 0]: a present element that is not last comes back at the end |
| `Catalog.CatalogWellFormed` | components/Shop.tsx:74-201 | the four catalogue products have pairwise distinct ids, non-negative prices, and at least one size and one colour |
| `Catalog.FilterByCategory` | components/Shop.tsx:1402-1404 | a product is listed iff it is in the catalogue and belongs to the selected category; "All" lists the catalogue unchanged |
| `Catalog.FilterByCategoryAppend` | components/Shop.tsx:1402-1404 | the listing of a split catalogue is the two halves' listings in turn, so it follows catalogue order |
| `Catalog.FindById` | components/Shop.tsx:1464 | `Array.find` by id: absent iff no product has that id, otherwise the first product with that id |
| `Catalog.WishlistProducts` | components/Shop.tsx:1407-1409 | the drawer lists exactly the catalogue products whose id is wishlisted |
| `Catalog.WishlistProductsAppend` | components/Shop.tsx:1407-1409 | the drawer list of a split catalogue is the two halves' lists in turn, so it follows catalogue order |
| `Catalog.WishlistViewIgnoresOrder` | components/Shop.tsx:1407-1409 | two wishlists with the same ids give the same drawer list, whatever their order or repetitions |
| `Cart.CartKey` | components/Shop.tsx:1271 | the line key: product id, size and colour joined with dashes, as a string |
| `Cart.CartKeyShape` | components/Shop.tsx:1271 | the key starts with the product id and a dash, ends with a dash and the colour, has the size in between, and is two longer than the three parts |
| `Cart.Subtotal` | components/Shop.tsx:1101 | the subtotal: the sum of price times quantity over the lines |
| `Cart.BadgeCount` | components/Shop.tsx:1547 | the unit count: the sum of the quantities over the lines |
| `Cart.CartTotals` | components/Shop.tsx:1101 | one left-to-right accumulation over the cart yields exactly the subtotal and the unit count |
| `Cart.SubtotalAppend` | components/Shop.tsx:1101 | subtotal and unit count of a concatenation are the sums over the parts |
| `Cart.BadgeAtLeastLines` | components/Shop.tsx:1541-1547 | with every quantity at least one, the unit count is at least the number of lines and positive iff the cart is non-empty |
| `Cart.SubtotalNonNegative` | components/Shop.tsx:1101 | with non-negative prices and positive quantities the subtotal is non-negative |
| `Cart.RemainingForFreeShipping` | components/Shop.tsx:1101-1103 | the amount still missing is never negative, is zero exactly when the subtotal reaches 1500, and otherwise tops the subtotal up to exactly 1500 |
| `Cart.ShippingLabel` | components/Shop.tsx:1207 | the drawer shows "FREE" exactly when the subtotal reaches 1500 |
| `Cart.Badge` | components/Shop.tsx:1541-1547 | the badge appears iff the cart is non-empty and then shows the total number of units, which is at least one per line |
| `Cart.AddToCart` | components/Shop.tsx:1269-1280 | an existing key gains exactly one unit in place with all other lines and the order unchanged; a new key appends one line of quantity one at the end; the cart invariant (distinct keys, quantities at least one, keys built from the triple) is kept |
| `Cart.RemoveFromCart` | components/Shop.tsx:1286-1287 | no line with the key is left, every other line stays, an absent key changes nothing, and the cart invariant is kept |
| `Cart.UpdateQuantity` | components/Shop.tsx:1298-1306 | only lines with the key change, and only when the new quantity stays positive; quantities at least one stay at least one; the cart invariant is kept |
| `Cart.AddTouchesOneLine` | components/Shop.tsx:1271-1278 | with distinct keys, incrementing an existing key changes exactly that one line |
| `Cart.AddToCartTotals` | components/Shop.tsx:1269-1280 | every add raises the badge by one and the subtotal by the unit price of the line that received the unit |
| `Cart.RemoveCutsOneLine` | components/Shop.tsx:1287 | with distinct keys, removing line i's key yields the cart with exactly line i cut out, order kept |
| `Cart.RemoveFromCartTotals` | components/Shop.tsx:1287 | removing a line lowers the subtotal by that line's amount and the badge by its units |
| `Cart.UpdateTouchesOneLine` | components/Shop.tsx:1298-1306 | with distinct keys, a quantity change leaves every other line as it was |
| `Cart.UpdateQuantityTotals` | components/Shop.tsx:1298-1306 | an accepted change moves the subtotal by price times delta and the badge by delta; a change the floor rejects leaves the subtotal alone |
| `Cart.RepeatedAdds` | components/Shop.tsx:1269-1280 | n adds of a new (product, size, colour) yield one new line, at the end, with quantity n |
| `Cart.DistinctKeysGiveDistinctLines` | components/Shop.tsx:1271-1280 | two adds with different keys into an empty cart give two lines in add order, each of quantity one |
| `Cart.AddTwiceToEmpty` | components/Shop.tsx:1269-1280 | two adds of one variant to an empty cart give exactly one line of quantity two |
| `Cart.AddOtherToOneLine` | components/Shop.tsx:1269-1280 | a different variant added to a one-line cart is appended after the untouched line, adding its price to the subtotal |
| `Cart.TwiceThenOther` | components/Shop.tsx:1269-1280 | for any product, two adds of one variant and one of another give two lines of quantities 2 and 1 and a subtotal of three unit prices |
| `Cart.TeeScenario` | components/Shop.tsx:1269-1280 | the tee in M/Black twice and L/Black once gives two lines with quantities 2 and 1 and subtotal 1950 |
| `Cart.CartIdsCanCollide` | components/Shop.tsx:1271 | two different (id, size) pairs build the same key, so the key is a string and not a triple |
| `Cart.CatalogCartIdsInjective` | components/Shop.tsx:1271 | over catalogue products and their own colours, equal keys mean equal product, size and colour |
| `Shop.InitialValid` | components/Shop.tsx:1245-1263 | the page starts with an empty cart, no user, and the page invariant holding |
| `Shop.DismissToast` | components/Shop.tsx:1418 | closing the notification hides it, keeps its text and its kind, and touches nothing else |
| `Shop.OnAddToCart` | components/Shop.tsx:1269-1283 | adds through the cart rule, announces the product and opens the drawer; nothing else changes; the page invariant is kept |
| `Shop.OnRemoveFromCart` | components/Shop.tsx:1286-1289 | the cart becomes exactly the order-preserving removal of the key's lines, the rest in their order; announces it; nothing else changes; the invariant is kept |
| `Shop.OnClearCart` | components/Shop.tsx:1291-1296 | a declined confirmation changes nothing at all; a confirmed one empties the cart and changes only the cart and the notification |
| `Shop.OnUpdateQuantity` | components/Shop.tsx:1298-1306 | only the cart changes; positive quantities stay positive; the invariant is kept |
| `Shop.MockProfile` | components/Shop.tsx:1310-1321 | the mock profile carries the chosen provider, no orders and an empty wishlist |
| `Shop.Login` | components/Shop.tsx:1308-1323 | sign-in always yields a user of that provider with empty history and wishlist, closes the prompt, leaves the cart and everything else alone |
| `Shop.Logout` | components/Shop.tsx:1325-1330 | sign-out clears the user and closes the account and wishlist drawers; the cart survives |
| `Shop.WithToggled` | components/Shop.tsx:1338-1349 | the id is in the new wishlist iff it was not in the old one, every other id keeps its membership, an added id goes at the end, nothing else in the profile changes, and a valid profile (duplicate-free wishlist, consistent orders) stays valid |
| `Shop.ToggleWishlist` | components/Shop.tsx:1332-1350 | signed out: only the sign-in prompt opens; signed in: only the profile (toggled as `Shop.WithToggled` states) and the notification change, and the notification is "info" iff the id was present; the page invariant is kept |
| `Shop.WithToggledTwice` | components/Shop.tsx:1338-1349 | toggling an id twice restores the profile's wishlisted ids, and the whole profile when the id was absent |
| `Shop.ToggleWishlistTwice` | components/Shop.tsx:1332-1350 | toggling a product twice restores the wishlisted ids and the drawer's product list over any catalogue; the exact list comes back when it was not wishlisted |
| `Shop.WishlistDrawerRemove` | components/Shop.tsx:1463-1466 | an id outside the catalogue changes nothing; a catalogue id toggles that product |
| `Shop.PadEnd` | components/Shop.tsx:1369 | `String.padEnd`: a string already long enough is unchanged; a shorter one keeps its prefix and is filled with the pad character to the target length |
| `Shop.OrderId` | components/Shop.tsx:1369 | an order number is "NQ-", then the draw's decimal digits, then '0's up to nine characters (none when already longer); exactly nine characters for any draw below one million |
| `Shop.DecimalRoundTrip` | components/Shop.tsx:1369 | reading the decimal notation of a draw back digit by digit gives the draw |
| `Shop.OrderIdShowsDraw` | components/Shop.tsx:1369 | the digits after "NQ-" in an order number read back as the draw |
| `Shop.DecimalTimesTen` | components/Shop.tsx:1369 | the decimal form of ten times n is that of n followed by a zero |
| `Shop.OrderIdsCanCollide` | components/Shop.tsx:1369 | draws 5 and 500000 give the same order number, "NQ-500000" |
| `Shop.Checkout` | components/Shop.tsx:1359-1394 | signed out: only the cart closes and the sign-in prompt opens; signed in: exactly one order is put in front of the history, carrying the pre-checkout cart, its subtotal and status Processing; the cart empties and the confirmation shows; the invariant is kept |
| `Shop.ReturnToShop` | components/Shop.tsx:1399 | "Back to Shop" leaves the confirmation view and changes nothing else |
| `Shop.CheckoutThenReturn` | components/Shop.tsx:1398-1399 | after checkout and "Back to Shop" the cart is empty and the old cart is the newest order; the rest of the profile is unchanged |
| `Shop.ValidateSelection` | components/Shop.tsx:844-852 | the add is refused iff the size is missing, or the product has colours and none is chosen; it proceeds iff both are chosen; the colourless fallback faults |
| `Shop.CatalogSelectionNeverFaults` | components/Shop.tsx:844-852 | for catalogue products the fallback never faults: the add proceeds exactly when size and colour are both chosen |
| `Shop.QuickViewAdd` | components/Shop.tsx:844-852 | a refused selection leaves the page as it was; an accepted one adds the chosen line and closes the quick view; the invariant is kept |
| `Shop.SelectCategory` | components/Shop.tsx:1583-1588 | a tab changes only the selected category, and the listing then shows exactly that category's products |
| `Ledger.OpeningBooksBalance` | components/Interactive.tsx:277-285 | the opening books hold 22000 of assets against 13000 of liabilities and 9000 of equity, and no balance is negative |
| `Ledger.Post` | components/Interactive.tsx:295-332 | the reference double-entry rule: the debited account moves by the amount in its normal direction, the credited one by the amount against it, and every other account stays |
| `Ledger.PostingKeepsEquation` | components/Interactive.tsx:283-285 | an equal-amount debit and credit leaves assets minus liabilities minus equity unchanged, so the books are balanced after a posting iff they were before |
| `Ledger.Effects` | components/Interactive.tsx:295-332 | each transaction's balance updates equal the double-entry posting of its journal accounts for its amount |
| `Ledger.Enabled` | components/Interactive.tsx:303-319 | the three guards: collecting needs 1000 receivable, buying equipment 2000 cash, repaying 1000 cash and 1000 owed; invoicing and expenses are unguarded |
| `Ledger.GuardsAreExact` | components/Interactive.tsx:302-325 | from non-negative books a transaction is enabled exactly when its effects leave cash, equipment, receivables, payables and loans non-negative |
| `Ledger.Record` | components/Interactive.tsx:289 | the new entry goes first, the older entries follow in order, and at most five are kept |
| `Ledger.Apply` | components/Interactive.tsx:287-332 | a failed guard changes nothing; otherwise the books take the transaction's effects, the journal records its entry first, and the action is highlighted; balanced and non-negative books stay so |
| `Ledger.ExpireLastAction` | components/Interactive.tsx:291 | the highlight timer clears the last action and leaves books and journal alone |
| `Ledger.JournalIsRecentHistory` | components/Interactive.tsx:287-290 | after any session the journal is exactly the five most recently posted entries, newest first |
| `Ledger.OpeningSessions` | components/Interactive.tsx:277-281 | every session from the opening books and an empty journal stays balanced and non-negative, and its journal shows the five latest postings |
| `Ledger.RunKeepsInvariants` | components/Interactive.tsx:295-332 | any session keeps the books balanced, cash, equipment, receivables, payables and loans non-negative, and the journal at most five long |
| `Ledger.JournalNewestFirst` | components/Interactive.tsx:289 | with a clock that never runs backwards, journal ids never increase from the top down |
| `Patron.Step` | components/Interactive.tsx:560-601 | an event away from its step changes nothing; a tier sets that tier and its amount; typing marks the choice custom; Continue with a positive amount only moves to step 2, without one it changes nothing, and nothing else leaves step 1; submitting details with a name only moves to step 3, and without one changes nothing; each back, proceed, pay and settle button goes to its own step and changes nothing else; the text fields and the method choice set only their field; the step stays in 1..6 with a positive amount past step 1 |
| `Patron.InitialValid` | components/Interactive.tsx:562-567 | the wizard opens on step 1 in a valid state |
| `Patron.RunStaysValid` | components/Interactive.tsx:560-601 | any sequence of events keeps the step in 1..6 and the amount positive past step 1 |
| `Patron.LeavingAmountNeedsContinue` | components/Interactive.tsx:579-583 | a session from step 1 that leaves it contains a Continue taken on step 1 with a positive amount |
| `Patron.NoAmountStaysOnFirstStep` | components/Interactive.tsx:579-583 | on step 1 without a positive amount, only choosing a tier or typing an amount has any effect |
| `Patron.CoffeeDonationCompletes` | components/Interactive.tsx:569-597 | choosing the 50 tier, naming the donor, proceeding and paying reaches the success step with amount 50 |
| `Patron.EmptyAmountBlocksContinue` | components/Interactive.tsx:579-583 | a custom amount of zero keeps the wizard on step 1 even after a tier was chosen |
| `Diagrams.IsGenius` | Diagrams.tsx:24 | "GENIUS" is shown when the active list has eight entries |
| `Diagrams.ToggleNode` | Diagrams.tsx:16-21 | the node becomes active iff it was inactive, other nodes keep their state, and a newly active node joins at the end |
| `Diagrams.ToggleNodeKeepsValid` | Diagrams.tsx:16-21 | toggling a node 0..7 keeps the active list duplicate-free and within 0..7 |
| `Diagrams.ToggleNodeTwice` | Diagrams.tsx:16-21 | clicking a node twice restores the set of active nodes, and the very list when the node was inactive |
| `Diagrams.ClicksKeepValid` | Diagrams.tsx:16-21 | any sequence of clicks on rendered nodes keeps the active list valid |
| `Diagrams.Pigeonhole` | Diagrams.tsx:14-24 | a duplicate-free list of values below n has at most n entries, and exactly n iff it holds every value below n |
| `Diagrams.ValidLoopBounded` | Diagrams.tsx:14-24 | a valid active list has at most eight entries |
| `Diagrams.GeniusMeansAllActive` | Diagrams.tsx:24 | on a valid active list, "GENIUS" (length eight) holds iff every node 0..7 is active |
| `Diagrams.NextStage` | Diagrams.tsx:84 | a tick keeps the stage in 0..3, advances it by one, and wraps the last stage to 0 |
| `Diagrams.TicksAdvance` | Diagrams.tsx:84 | n ticks move the stage n places around the four-stage cycle |
| `Diagrams.FourTicksReturn` | Diagrams.tsx:80-88 | four ticks return the pipeline to its starting stage, which never leaves 0..3 |
| `Diagrams.Allocation` | Diagrams.tsx:151-155 | each mode's three percentages are non-negative and sum to 100 |
| `Diagrams.OpeningSplitFavoursCoding` | Diagrams.tsx:148-155 | the chart opens in Night mode, where coding has the largest share |

## Left out

- Rendering, styling, animation and the SVG geometry of the loop diagram (floating-point `Math.cos`/`Math.sin`): presentation only.
- Timers are atomic transitions:
  - the sign-in delay;
  - the checkout delay;
  - the notification's three-second auto-close;
  - the ledger highlight reset;
  - the pipeline interval;
  - the payment processing delay.

  The interleaving of a pending checkout timer with other clicks is not modelled. That timer uses the cart and user captured at click time. The transient `'processing'` checkout status is not modelled either.
- Floating point is not modelled:
  - the current and debt ratios;
  - the free-shipping progress percentage;
  - `Number(...)` parsing of the typed donation amount. The amount is taken as an integer, with 0 standing for an empty or non-numeric field, so fractional amounts are not represented.
- Randomness, the clock and the date are parameters. This covers the order-number draw, `Date.now()` journal ids and today's date. The draw is any natural number; the page only produces draws below one million.
- Host APIs are not modelled:
  - `confirm()` is a boolean argument;
  - the clipboard and the random wishlist share link are left out;
  - `toLocaleString` and `toLocaleDateString` formatting, including the ledger's display of absolute values, are left out.
- The HTML form validation of the wizard's required name field is modelled as a non-empty-name guard on submitting details. The card form has no required fields and always advances.
- Closing the donation modal unmounts it. Every opening therefore starts from `Patron.Initial`, and closing is not an event of the wizard.
- Presentational state is not modelled: the order-tracking progress in the confirmation view, the quick view's image gallery and error-hint timer, the size guide, reviews and ratings.
- The code-challenge arena, its regex syntax and log highlighters, and the application shell's view switching and scrolling are outside this model.
- Basics.ToggleTwice: states exact restoration of the list only when the element was absent, or last in a duplicate-free list, because a present element that is not last returns at the end (`Basics.ToggleTwiceCanReorder`); in general only the set of elements is restored.
- Diagrams.ToggleNodeTwice: restores the exact list only for an inactive node, for the same reason; the set of active nodes, which is all the diagram shows, is always restored.
- Shop.ToggleWishlistTwice: restores the exact wishlist only for a product that was not wishlisted, for the same reason; the wishlisted ids and the drawer's list are always restored.

=== FILE: basics.dfy ===
/** Small sequence vocabulary shared by the shop, the wishlist and the diagrams:
    an optional value, order-preserving filtering (JavaScript's `Array.filter`),
    duplicate-freedom, and the "remove if present, append otherwise" toggle that
    the page uses for both the wishlist and the loop diagram. */
module Basics {

  datatype Option<T> = None | Some(value: T)

  function Min(a: int, b: int): int { if a <= b then a else b }

  /** The elements of `xs` that satisfy `keep`, in their original order. */
  function Filter<T(!new)>(xs: seq<T>, keep: T -> bool): (r: seq<T>)
    ensures |r| <= |xs|
    ensures forall x :: x in r <==> x in xs && keep(x)
  {
    if xs == [] then []
    else (if keep(xs[0]) then [xs[0]] else []) + Filter(xs[1..], keep)
  }

  /** Filtering distributes over concatenation: the relative order of the kept
      elements is exactly their order in the input. */
  lemma {:induction false} FilterAppend<T(!new)>(a: seq<T>, b: seq<T>, keep: T -> bool)
    ensures Filter(a + b, keep) == Filter(a, keep) + Filter(b, keep)
  {
    if a == [] {
      assert a + b == b;
    } else {
      assert (a + b)[0] == a[0];
      assert (a + b)[1..] == a[1..] + b;
      FilterAppend(a[1..], b, keep);
    }
  }

  /** A filter that keeps every element is the identity. */
  lemma {:induction false} FilterKeepsAll<T(!new)>(xs: seq<T>, keep: T -> bool)
    requires forall i :: 0 <= i < |xs| ==> keep(xs[i])
    ensures Filter(xs, keep) == xs
  {
    if xs != [] {
      assert keep(xs[0]);
      FilterKeepsAll(xs[1..], keep);
    }
  }

  /** Filtering a list whose two ends are kept whole and whose middle element
      fails the test cuts out just that element. */
  lemma FilterCut<T(!new)>(pre: seq<T>, x: T, post: seq<T>, keep: T -> bool)
    requires !keep(x) && Filter(pre, keep) == pre && Filter(post, keep) == post
    ensures Filter(pre + [x] + post, keep) == pre + post
  {
    AppendAssoc(pre, [x], post);
    FilterAppend(pre, [x] + post, keep);
    FilterSkipsHead(x, post, keep);
  }

  lemma AppendAssoc<T>(a: seq<T>, b: seq<T>, c: seq<T>)
    ensures a + b + c == a + (b + c)
  {
  }

  /** A list is its prefix, its element at `i` and its suffix. */
  lemma SplitAt<T>(xs: seq<T>, i: int)
    requires 0 <= i < |xs|
    ensures xs == xs[..i] + [xs[i]] + xs[i + 1..]
  {
  }

  /** A prefix one longer is the prefix and the next element. */
  lemma TakeOneMore<T>(xs: seq<T>, i: int)
    requires 0 <= i < |xs|
    ensures xs[..i + 1] == xs[..i] + [xs[i]]
  {
  }

  lemma FilterSkipsHead<T(!new)>(x: T, xs: seq<T>, keep: T -> bool)
    requires !keep(x)
    ensures Filter([x] + xs, keep) == Filter(xs, keep)
  {
    assert ([x] + xs)[0] == x;
    assert ([x] + xs)[1..] == xs;
  }

  predicate NoDup<T(==)>(xs: seq<T>) {
    forall i, j :: 0 <= i < j < |xs| ==> xs[i] != xs[j]
  }

  /** Filtering never introduces duplicates. */
  lemma {:induction false} FilterNoDup<T(!new)>(xs: seq<T>, keep: T -> bool)
    requires NoDup(xs)
    ensures NoDup(Filter(xs, keep))
  {
    if xs != [] {
      FilterNoDup(xs[1..], keep);
      assert xs[0] !in xs[1..];
    }
  }

  /** `xs` with every occurrence of `x` dropped: `filter(y => y !== x)`. */
  function Without<T(==,!new)>(xs: seq<T>, x: T): (r: seq<T>)
    ensures |r| <= |xs|
    ensures forall y :: y in r <==> y in xs && y != x
  {
    if xs == [] then []
    else (if xs[0] == x then [] else [xs[0]]) + Without(xs[1..], x)
  }

  lemma {:induction false} WithoutAppend<T(!new)>(a: seq<T>, b: seq<T>, x: T)
    ensures Without(a + b, x) == Without(a, x) + Without(b, x)
  {
    if a == [] {
      assert a + b == b;
    } else {
      assert (a + b)[0] == a[0];
      assert (a + b)[1..] == a[1..] + b;
      WithoutAppend(a[1..], b, x);
    }
  }

  /** Dropping an element that does not occur changes nothing. */
  lemma {:induction false} WithoutAbsent<T(!new)>(xs: seq<T>, x: T)
    requires x !in xs
    ensures Without(xs, x) == xs
  {
    if xs != [] {
      assert x !in xs[1..];
      WithoutAbsent(xs[1..], x);
    }
  }

  lemma {:induction false} WithoutNoDup<T(!new)>(xs: seq<T>, x: T)
    requires NoDup(xs)
    ensures NoDup(Without(xs, x))
  {
    if xs != [] {
      WithoutNoDup(xs[1..], x);
      assert xs[0] !in xs[1..];
    }
  }

  /** Dropping `x` is the filter that keeps everything but `x`. */
  lemma {:induction false} WithoutIsFilter<T(!new)>(xs: seq<T>, x: T)
    ensures Without(xs, x) == Filter(xs, y => y != x)
  {
    if xs != [] {
      WithoutIsFilter(xs[1..], x);
    }
  }

  /** Remove `x` when present, append it at the end otherwise. */
  function Toggle<T(==,!new)>(xs: seq<T>, x: T): (r: seq<T>)
    ensures x in r <==> x !in xs
    ensures forall y :: y != x ==> (y in r <==> y in xs)
    ensures x !in xs ==> |r| == |xs| + 1 && r[..|xs|] == xs && r[|xs|] == x
  {
    if x in xs then Without(xs, x) else xs + [x]
  }

  /** Toggling keeps a duplicate-free list duplicate-free. */
  lemma ToggleNoDup<T(!new)>(xs: seq<T>, x: T)
    requires NoDup(xs)
    ensures NoDup(Toggle(xs, x))
  {
    if x in xs {
      WithoutNoDup(xs, x);
    }
  }

  /** Toggling the same element twice restores the list's elements. The exact
      sequence comes back when the element was absent; a present element that
      was not last comes back at the end instead. */
  lemma ToggleTwice<T(!new)>(xs: seq<T>, x: T)
    ensures forall y :: y in Toggle(Toggle(xs, x), x) <==> y in xs
    ensures x !in xs ==> Toggle(Toggle(xs, x), x) == xs
    ensures NoDup(xs) && |xs| > 0 && x == xs[|xs| - 1] ==> Toggle(Toggle(xs, x), x) == xs
  {
    if x !in xs {
      WithoutAppend(xs, [x], x);
      WithoutAbsent(xs, x);
      assert Without([x], x) == [];
    }
    if NoDup(xs) && |xs| > 0 && x == xs[|xs| - 1] {
      var init := xs[..|xs| - 1];
      assert xs == init + [x];
      assert x !in init;
      WithoutAppend(init, [x], x);
      WithoutAbsent(init, x);
      assert Without([x], x) == [];
    }
  }

  /** A concrete case where the second toggle does not restore the order. */
  lemma ToggleTwiceCanReorder()
    ensures Toggle(Toggle([0, 1], 0), 0) == [1, 0]
  {
    assert 0 in [0, 1];
    assert Without([0, 1], 0) == [1] by {
      assert Without([1], 0) == [1] by {
        assert Without([1][1..], 0) == [];
      }
      assert [0, 1][1..] == [1];
    }
    assert 0 !in [1];
  }
}

=== FILE: cart.dfy ===
/** The shopping cart: an ordered list of line items keyed by a string `cartId`,
    with add-or-increment, remove, quantity delta with a floor of one, and the
    totals the cart drawer and the navigation badge recompute on every render. */
module Cart {
  import opened Basics
  import opened Catalog

  /** Orders at or above this subtotal ship free. */
  const FreeShippingThreshold := 1500

  /** The line key: product id, size and colour joined with dashes. It is a
      string, not a triple; distinct triples can share a key (see
      `CartIdsCanCollide`). */
  function CartKey(productId: string, size: string, color: string): string {
    productId + "-" + size + "-" + color
  }

  /** The key begins with the product id and a dash and ends with a dash and
      the colour; the size sits in between. */
  lemma CartKeyShape(productId: string, size: string, color: string)
    ensures var k := CartKey(productId, size, color);
      && |k| == |productId| + |size| + |color| + 2
      && k[..|productId|] == productId && k[|productId|] == '-'
      && k[|productId| + 1..|k| - |color| - 1] == size
      && k[|k| - |color| - 1] == '-' && k[|k| - |color|..] == color
  {
  }

  /** A line item: the product snapshot, the chosen size and colour, a quantity
      and the key. */
  datatype CartItem = CartItem(product: Product, size: string, color: string, quantity: int, cartId: string)

  function NewLine(p: Product, size: string, color: string): CartItem {
    CartItem(p, size, color, 1, CartKey(p.id, size, color))
  }

  function LineTotal(item: CartItem): int {
    item.product.price * item.quantity
  }

  function Quantity(item: CartItem): int {
    item.quantity
  }

  predicate HasLine(cart: seq<CartItem>, key: string) {
    exists i :: 0 <= i < |cart| && cart[i].cartId == key
  }

  predicate DistinctIds(cart: seq<CartItem>) {
    forall i, j :: 0 <= i < j < |cart| ==> cart[i].cartId != cart[j].cartId
  }

  predicate QuantitiesPositive(cart: seq<CartItem>) {
    forall i :: 0 <= i < |cart| ==> cart[i].quantity >= 1
  }

  predicate KeysMatch(cart: seq<CartItem>) {
    forall i :: 0 <= i < |cart| ==> cart[i].cartId == CartKey(cart[i].product.id, cart[i].size, cart[i].color)
  }

  /** The cart invariant every operation keeps: one line per key, every
      quantity at least one, every key built from its line's triple. */
  predicate WellFormed(cart: seq<CartItem>) {
    DistinctIds(cart) && QuantitiesPositive(cart) && KeysMatch(cart)
  }

  // ---------------------------------------------------------------------------
  // Totals

  /** Left-to-right reduction of a per-line measure, as `Array.reduce` from 0. */
  function SumOf(cart: seq<CartItem>, f: CartItem -> int): int {
    if cart == [] then 0 else f(cart[0]) + SumOf(cart[1..], f)
  }

  function Subtotal(cart: seq<CartItem>): int {
    SumOf(cart, LineTotal)
  }

  /** The number on the cart badge: the total number of units. */
  function BadgeCount(cart: seq<CartItem>): int {
    SumOf(cart, Quantity)
  }

  lemma {:induction false} SumAppend(a: seq<CartItem>, b: seq<CartItem>, f: CartItem -> int)
    ensures SumOf(a + b, f) == SumOf(a, f) + SumOf(b, f)
  {
    if a == [] {
      assert a + b == b;
    } else {
      assert (a + b)[1..] == a[1..] + b;
      SumAppend(a[1..], b, f);
    }
  }

  /** Replacing one line changes a sum by exactly that line's difference. */
  lemma {:induction false} SumPointChange(a: seq<CartItem>, b: seq<CartItem>, i: int, f: CartItem -> int)
    requires |a| == |b| && 0 <= i < |a|
    requires forall j :: 0 <= j < |a| && j != i ==> a[j] == b[j]
    ensures SumOf(b, f) == SumOf(a, f) - f(a[i]) + f(b[i])
  {
    if i > 0 {
      SumPointChange(a[1..], b[1..], i - 1, f);
    } else {
      assert a[1..] == b[1..];
    }
  }

  lemma MulDistributes(a: int, b: int, c: int)
    ensures a * (b + c) == a * b + a * c
  {
  }

  lemma SumSingle(x: CartItem, f: CartItem -> int)
    ensures SumOf([x], f) == f(x)
  {
    assert [x][1..] == [];
  }

  /** Recomputing the subtotal over a concatenation equals summing the parts,
      so a fresh reduction after any edit agrees with an incremental update. */
  lemma SubtotalAppend(a: seq<CartItem>, b: seq<CartItem>)
    ensures Subtotal(a + b) == Subtotal(a) + Subtotal(b)
    ensures BadgeCount(a + b) == BadgeCount(a) + BadgeCount(b)
  {
    SumAppend(a, b, LineTotal);
    SumAppend(a, b, Quantity);
  }

  /** Every line holds at least one unit, so the badge counts at least one per
      line and is positive exactly when the cart is non-empty. */
  lemma {:induction false} BadgeAtLeastLines(cart: seq<CartItem>)
    requires QuantitiesPositive(cart)
    ensures BadgeCount(cart) >= |cart|
    ensures BadgeCount(cart) > 0 <==> |cart| > 0
  {
    if cart != [] {
      BadgeAtLeastLines(cart[1..]);
    }
  }

  /** With non-negative prices the subtotal is never negative. */
  lemma {:induction false} SubtotalNonNegative(cart: seq<CartItem>)
    requires QuantitiesPositive(cart)
    requires forall i :: 0 <= i < |cart| ==> cart[i].product.price >= 0
    ensures Subtotal(cart) >= 0
  {
    if cart != [] {
      SubtotalNonNegative(cart[1..]);
    }
  }

  /** `Math.max(0, threshold - subtotal)`: what is still missing for free
      shipping. */
  function RemainingForFreeShipping(cart: seq<CartItem>): (r: int)
    ensures r >= 0
    ensures r == 0 <==> Subtotal(cart) >= FreeShippingThreshold
    ensures r > 0 ==> Subtotal(cart) + r == FreeShippingThreshold
  {
    var total := Subtotal(cart);
    if FreeShippingThreshold - total > 0 then FreeShippingThreshold - total else 0
  }

  /** The shipping line of the cart drawer. */
  function ShippingLabel(cart: seq<CartItem>): (r: string)
    ensures r == "FREE" <==> Subtotal(cart) >= FreeShippingThreshold
  {
    if RemainingForFreeShipping(cart) == 0 then "FREE" else "Calc at checkout"
  }

  /** The badge is drawn only for a non-empty cart and then shows the units. */
  function Badge(cart: seq<CartItem>): (r: Option<int>)
    ensures r.Some? <==> |cart| > 0
    ensures r.Some? ==> r.value == BadgeCount(cart)
    ensures QuantitiesPositive(cart) && r.Some? ==> r.value >= |cart| >= 1
  {
    assert QuantitiesPositive(cart) ==> BadgeCount(cart) >= |cart| by {
      if QuantitiesPositive(cart) { BadgeAtLeastLines(cart); }
    }
    if |cart| > 0 then Some(BadgeCount(cart)) else None
  }

  // ---------------------------------------------------------------------------
  // Operations

  /** The `map` callback of `addToCart`: one more unit on the line with the key. */
  function Incremented(item: CartItem, key: string): CartItem {
    if item.cartId == key then item.(quantity := item.quantity + 1) else item
  }

  function IncrementMatching(cart: seq<CartItem>, key: string): (r: seq<CartItem>)
    ensures |r| == |cart|
    ensures forall i :: 0 <= i < |cart| ==> r[i] == Incremented(cart[i], key)
  {
    seq(|cart|, i requires 0 <= i < |cart| => Incremented(cart[i], key))
  }

  /** The drawer's totals as the page computes them: one left-to-right pass,
      accumulating price times quantity and the units. */
  method CartTotals(cart: seq<CartItem>) returns (subtotal: int, units: int)
    ensures subtotal == Subtotal(cart) && units == BadgeCount(cart)
  {
    subtotal, units := 0, 0;
    var i := 0;
    while i < |cart|
      invariant 0 <= i <= |cart|
      invariant subtotal == Subtotal(cart[..i]) && units == BadgeCount(cart[..i])
    {
      TakeOneMore(cart, i);
      SubtotalAppend(cart[..i], [cart[i]]);
      SumSingle(cart[i], LineTotal);
      SumSingle(cart[i], Quantity);
      subtotal := subtotal + LineTotal(cart[i]);
      units := units + cart[i].quantity;
      i := i + 1;
    }
    assert cart[..i] == cart;
  }

  /** Add one unit of (product, size, colour): an existing line with that key
      gains one unit in place, otherwise a line of quantity one is appended. */
  function AddToCart(cart: seq<CartItem>, p: Product, size: string, color: string): (r: seq<CartItem>)
    ensures HasLine(r, CartKey(p.id, size, color))
    ensures HasLine(cart, CartKey(p.id, size, color)) ==>
      |r| == |cart| &&
      forall i :: 0 <= i < |cart| ==>
        if cart[i].cartId == CartKey(p.id, size, color)
        then r[i] == cart[i].(quantity := cart[i].quantity + 1)
        else r[i] == cart[i]
    ensures !HasLine(cart, CartKey(p.id, size, color)) ==>
      |r| == |cart| + 1 && r[..|cart|] == cart &&
      r[|cart|] == CartItem(p, size, color, 1, CartKey(p.id, size, color))
    ensures WellFormed(cart) ==> WellFormed(r)
  {
    var key := CartKey(p.id, size, color);
    if HasLine(cart, key) then
      var r := IncrementMatching(cart, key);
      assert HasLine(r, key) by {
        var i :| 0 <= i < |cart| && cart[i].cartId == key;
        assert r[i].cartId == key;
      }
      r
    else
      var r := cart + [NewLine(p, size, color)];
      assert r[|cart|].cartId == key;
      r
  }

  /** The filter predicate of `removeFromCart`: every line whose key differs. */
  function OtherThan(id: string): CartItem -> bool {
    (it: CartItem) => it.cartId != id
  }

  /** Drop every line with the given key, keeping the rest in order. */
  function RemoveFromCart(cart: seq<CartItem>, id: string): (r: seq<CartItem>)
    ensures !HasLine(r, id)
    ensures forall x :: x in r <==> x in cart && x.cartId != id
    ensures !HasLine(cart, id) ==> r == cart
    ensures WellFormed(cart) ==> WellFormed(r)
  {
    var r := Filter(cart, OtherThan(id));
    forall i | 0 <= i < |r| ensures r[i] in cart && r[i].cartId != id {
      assert r[i] in r;
    }
    assert !HasLine(cart, id) ==> r == cart by {
      if !HasLine(cart, id) {
        FilterKeepsAll(cart, OtherThan(id));
      }
    }
    assert WellFormed(cart) ==> WellFormed(r) by {
      if WellFormed(cart) {
        FilterNoDup(cart, OtherThan(id));
      }
    }
    r
  }

  /** Add `delta` to the quantity of the lines with the given key, unless that
      would take the quantity to zero or below, in which case the line is left
      as it was. */
  function UpdateQuantity(cart: seq<CartItem>, id: string, delta: int): (r: seq<CartItem>)
    ensures |r| == |cart|
    ensures forall i :: 0 <= i < |cart| && cart[i].cartId != id ==> r[i] == cart[i]
    ensures forall i :: 0 <= i < |cart| && cart[i].cartId == id ==>
      r[i] == cart[i].(quantity := if cart[i].quantity + delta > 0 then cart[i].quantity + delta
                                   else cart[i].quantity)
    ensures QuantitiesPositive(cart) ==> QuantitiesPositive(r)
    ensures WellFormed(cart) ==> WellFormed(r)
  {
    var r := seq(|cart|, i requires 0 <= i < |cart| => Adjusted(cart[i], id, delta));
    forall i | 0 <= i < |cart|
      ensures r[i].cartId == cart[i].cartId && r[i].product == cart[i].product
      ensures r[i].size == cart[i].size && r[i].color == cart[i].color
      ensures r[i].quantity >= Min(cart[i].quantity, 1)
    {
    }
    r
  }


  /** The `map` callback of `updateQuantity`. */
  function Adjusted(item: CartItem, id: string, delta: int): CartItem {
    if item.cartId == id && item.quantity + delta > 0 then item.(quantity := item.quantity + delta) else item
  }

  // ---------------------------------------------------------------------------
  // Totals across operations

  /** Lines are told apart by key, so incrementing an existing key touches
      one line. */
  lemma AddTouchesOneLine(cart: seq<CartItem>, p: Product, size: string, color: string, i: int)
    requires DistinctIds(cart) && 0 <= i < |cart| && cart[i].cartId == CartKey(p.id, size, color)
    ensures var r := AddToCart(cart, p, size, color);
      |r| == |cart| && r[i] == cart[i].(quantity := cart[i].quantity + 1)
      && forall j :: 0 <= j < |cart| && j != i ==> r[j] == cart[j]
  {
    var r := AddToCart(cart, p, size, color);
    assert HasLine(cart, CartKey(p.id, size, color));
    forall j | 0 <= j < |cart| && j != i
      ensures r[j] == cart[j]
    {
      assert cart[j].cartId != cart[i].cartId;
    }
  }

  /** Adding one unit raises the badge by one and the subtotal by the unit
      price of the line that received it. */
  lemma AddToCartTotals(cart: seq<CartItem>, p: Product, size: string, color: string)
    requires DistinctIds(cart)
    ensures BadgeCount(AddToCart(cart, p, size, color)) == BadgeCount(cart) + 1
    ensures !HasLine(cart, CartKey(p.id, size, color)) ==>
      Subtotal(AddToCart(cart, p, size, color)) == Subtotal(cart) + p.price
    ensures forall i :: 0 <= i < |cart| && cart[i].cartId == CartKey(p.id, size, color) ==>
      Subtotal(AddToCart(cart, p, size, color)) == Subtotal(cart) + cart[i].product.price
  {
    var key := CartKey(p.id, size, color);
    var r := AddToCart(cart, p, size, color);
    if HasLine(cart, key) {
      var i :| 0 <= i < |cart| && cart[i].cartId == key;
      AddTouchesOneLine(cart, p, size, color, i);
      SumPointChange(cart, r, i, LineTotal);
      SumPointChange(cart, r, i, Quantity);
      MulDistributes(cart[i].product.price, cart[i].quantity, 1);
      assert forall k :: 0 <= k < |cart| && cart[k].cartId == key ==> k == i;
    } else {
      assert r == cart + [NewLine(p, size, color)];
      SubtotalAppend(cart, [NewLine(p, size, color)]);
      SumSingle(NewLine(p, size, color), LineTotal);
      SumSingle(NewLine(p, size, color), Quantity);
    }
  }

  /** With one line per key, removing a line's key cuts exactly that line out. */
  lemma RemoveCutsOneLine(cart: seq<CartItem>, i: int)
    requires DistinctIds(cart) && 0 <= i < |cart|
    ensures RemoveFromCart(cart, cart[i].cartId) == cart[..i] + cart[i + 1..]
  {
    var id := cart[i].cartId;
    var pre, post := cart[..i], cart[i + 1..];
    forall j | 0 <= j < |pre| ensures OtherThan(id)(pre[j]) {
      assert pre[j] == cart[j];
    }
    forall j | 0 <= j < |post| ensures OtherThan(id)(post[j]) {
      assert post[j] == cart[i + 1 + j];
    }
    FilterKeepsAll(pre, OtherThan(id));
    FilterKeepsAll(post, OtherThan(id));
    SplitAt(cart, i);
    FilterCut(pre, cart[i], post, OtherThan(id));
  }

  /** Removing a line takes exactly that line's amount off the subtotal and its
      units off the badge. */
  lemma RemoveFromCartTotals(cart: seq<CartItem>, i: int)
    requires DistinctIds(cart) && 0 <= i < |cart|
    ensures Subtotal(RemoveFromCart(cart, cart[i].cartId)) == Subtotal(cart) - LineTotal(cart[i])
    ensures BadgeCount(RemoveFromCart(cart, cart[i].cartId)) == BadgeCount(cart) - cart[i].quantity
  {
    var pre, post := cart[..i], cart[i + 1..];
    RemoveCutsOneLine(cart, i);
    SplitAt(cart, i);
    AppendAssoc(pre, [cart[i]], post);
    SubtotalAppend(pre, [cart[i]] + post);
    SubtotalAppend([cart[i]], post);
    SubtotalAppend(pre, post);
    SumSingle(cart[i], LineTotal);
    SumSingle(cart[i], Quantity);
  }

  /** Lines are told apart by key, so a quantity change touches one line. */
  lemma UpdateTouchesOneLine(cart: seq<CartItem>, i: int, delta: int)
    requires DistinctIds(cart) && 0 <= i < |cart|
    ensures var r := UpdateQuantity(cart, cart[i].cartId, delta);
      |r| == |cart| && forall j :: 0 <= j < |cart| && j != i ==> r[j] == cart[j]
  {
    var r := UpdateQuantity(cart, cart[i].cartId, delta);
    forall j | 0 <= j < |cart| && j != i
      ensures r[j] == cart[j]
    {
      assert cart[j].cartId != cart[i].cartId;
    }
  }

  /** A quantity change moves the subtotal by price times delta when it is
      applied and not at all when the floor of one rejects it. */
  lemma UpdateQuantityTotals(cart: seq<CartItem>, i: int, delta: int)
    requires DistinctIds(cart) && 0 <= i < |cart|
    ensures cart[i].quantity + delta > 0 ==>
      Subtotal(UpdateQuantity(cart, cart[i].cartId, delta)) == Subtotal(cart) + cart[i].product.price * delta
    ensures cart[i].quantity + delta > 0 ==>
      BadgeCount(UpdateQuantity(cart, cart[i].cartId, delta)) == BadgeCount(cart) + delta
    ensures cart[i].quantity + delta <= 0 ==>
      Subtotal(UpdateQuantity(cart, cart[i].cartId, delta)) == Subtotal(cart)
  {
    var r := UpdateQuantity(cart, cart[i].cartId, delta);
    UpdateTouchesOneLine(cart, i, delta);
    SumPointChange(cart, r, i, LineTotal);
    SumPointChange(cart, r, i, Quantity);
    if cart[i].quantity + delta > 0 {
      assert r[i] == cart[i].(quantity := cart[i].quantity + delta);
      MulDistributes(cart[i].product.price, cart[i].quantity, delta);
    } else {
      assert r[i] == cart[i];
    }
  }

  // ---------------------------------------------------------------------------
  // Repeated adds and the key

  function AddTimes(cart: seq<CartItem>, p: Product, size: string, color: string, n: nat): seq<CartItem> {
    if n == 0 then cart else AddToCart(AddTimes(cart, p, size, color, n - 1), p, size, color)
  }

  /** Adding the same (product, size, colour) n times to a cart without that key
      yields exactly one new line, at the end, with quantity n. */
  lemma {:induction false} RepeatedAdds(cart: seq<CartItem>, p: Product, size: string, color: string, n: nat)
    requires !HasLine(cart, CartKey(p.id, size, color)) && n >= 1
    ensures AddTimes(cart, p, size, color, n) == cart + [CartItem(p, size, color, n, CartKey(p.id, size, color))]
  {
    var key := CartKey(p.id, size, color);
    if n > 1 {
      RepeatedAdds(cart, p, size, color, n - 1);
      var prev := cart + [CartItem(p, size, color, n - 1, key)];
      var want := cart + [CartItem(p, size, color, n, key)];
      assert prev[|cart|].cartId == key;
      assert HasLine(prev, key);
      var r := AddToCart(prev, p, size, color);
      assert |r| == |want|;
      forall j | 0 <= j < |r| ensures r[j] == want[j] {
        if j < |cart| {
          assert prev[j] == cart[j] && cart[j].cartId != key;
        }
      }
      assert r == want;
    }
  }

  /** Two adds with different keys yield two separate lines. */
  lemma DistinctKeysGiveDistinctLines(p: Product, s1: string, c1: string, q: Product, s2: string, c2: string)
    requires CartKey(p.id, s1, c1) != CartKey(q.id, s2, c2)
    ensures var r := AddToCart(AddToCart([], p, s1, c1), q, s2, c2);
      |r| == 2 && r[0] == NewLine(p, s1, c1) && r[1] == NewLine(q, s2, c2)
  {
    var once := AddToCart([], p, s1, c1);
    assert !HasLine(once, CartKey(q.id, s2, c2));
  }

  /** Two adds of one variant to an empty cart give one line of quantity two. */
  lemma AddTwiceToEmpty(p: Product, size: string, color: string)
    ensures AddToCart(AddToCart([], p, size, color), p, size, color) == [CartItem(p, size, color, 2, CartKey(p.id, size, color))]
  {
    var key := CartKey(p.id, size, color);
    var once := AddToCart([], p, size, color);
    assert once[0].cartId == key;
    var twice := AddToCart(once, p, size, color);
    assert |twice| == 1 && twice[0] == once[0].(quantity := 2);
  }

  /** A different variant added to a one-line cart is appended after it. */
  lemma AddOtherToOneLine(x: CartItem, p: Product, size: string, color: string)
    requires x.cartId != CartKey(p.id, size, color)
    ensures var r := AddToCart([x], p, size, color);
      |r| == 2 && r[0] == x && r[1].quantity == 1 && Subtotal(r) == LineTotal(x) + p.price
  {
    assert !HasLine([x], CartKey(p.id, size, color));
    SumSingle(x, LineTotal);
    AddToCartTotals([x], p, size, color);
  }

  /** Two units of one variant and then one of another: two lines, in that
      order, and a subtotal of three unit prices. */
  lemma TwiceThenOther(p: Product, s1: string, c1: string, s2: string, c2: string)
    requires CartKey(p.id, s1, c1) != CartKey(p.id, s2, c2)
    ensures var r := AddToCart(AddToCart(AddToCart([], p, s1, c1), p, s1, c1), p, s2, c2);
      |r| == 2 && r[0].quantity == 2 && r[1].quantity == 1 && Subtotal(r) == 3 * p.price
  {
    AddTwiceToEmpty(p, s1, c1);
    AddOtherToOneLine(CartItem(p, s1, c1, 2, CartKey(p.id, s1, c1)), p, s2, c2);
  }

  /** The walk-through: the tee in M/Black twice, then in L/Black once. */
  lemma TeeScenario()
    ensures var r := AddToCart(AddToCart(AddToCart([], Tee, "M", "Black"), Tee, "M", "Black"), Tee, "L", "Black");
      |r| == 2 && r[0].quantity == 2 && r[1].quantity == 1 && Subtotal(r) == 650 * 2 + 650 * 1
  {
    var m := CartKey(Tee.id, "M", "Black");
    var l := CartKey(Tee.id, "L", "Black");
    assert m != l by {
      assert m[14] == 'M';
      assert l[14] == 'L';
    }
    TwiceThenOther(Tee, "M", "Black", "L", "Black");
  }

  /** Dashes inside ids and sizes make the key ambiguous in general. */
  lemma CartIdsCanCollide()
    ensures CartKey("socks-aa", "6-9", "Black") == CartKey("socks", "aa-6-9", "Black")
  {
  }

  /** Length of the dash-free tail of a string. */
  function DashFreeTail(k: string): nat {
    if k == [] || k[|k| - 1] == '-' then 0 else 1 + DashFreeTail(k[..|k| - 1])
  }

  lemma {:induction false} DashFreeTailOfKey(a: string, c: string)
    requires '-' !in c
    ensures DashFreeTail(a + "-" + c) == |c|
  {
    var k := a + "-" + c;
    if c != [] {
      assert k[|k| - 1] == c[|c| - 1];
      assert c[|c| - 1] in c;
      assert k[..|k| - 1] == a + "-" + c[..|c| - 1];
      DashFreeTailOfKey(a, c[..|c| - 1]);
    }
  }

  /** When the colour holds no dash, the key's last dash separates it. */
  lemma KeySuffix(a1: string, c1: string, a2: string, c2: string)
    requires '-' !in c1 && '-' !in c2
    requires a1 + "-" + c1 == a2 + "-" + c2
    ensures a1 == a2 && c1 == c2
  {
    var k := a1 + "-" + c1;
    var n := |k|;
    DashFreeTailOfKey(a1, c1);
    DashFreeTailOfKey(a2, c2);
    assert c1 == k[n - |c1|..];
    assert c2 == (a2 + "-" + c2)[n - |c2|..];
    assert a1 == k[..n - |c1| - 1];
    assert a2 == (a2 + "-" + c2)[..n - |c2| - 1];
  }

  /** Over the shipped catalogue the key does determine the triple: colour names
      hold no dash and the product ids differ in their first letter. */
  lemma CatalogCartIdsInjective(p: Product, s1: string, c1: string, q: Product, s2: string, c2: string)
    requires p in Products && q in Products
    requires c1 in p.colors && c2 in q.colors
    requires CartKey(p.id, s1, c1) == CartKey(q.id, s2, c2)
    ensures p == q && s1 == s2 && c1 == c2
  {
    assert '-' !in c1 && '-' !in c2;
    KeySuffix(p.id + "-" + s1, c1, q.id + "-" + s2, c2);
    assert CartKey(p.id, s1, c1)[0] == p.id[0];
    assert CartKey(q.id, s2, c2)[0] == q.id[0];
    assert p.id == q.id;
    var n := |p.id| + 1;
    assert s1 == (p.id + "-" + s1)[n..];
    assert s2 == (q.id + "-" + s2)[n..];
  }
}

=== FILE: catalog.dfy ===
/** The storefront's static product catalogue and the read-only views the page
    derives from it: the category filter, the lookup by id and the wishlist view.
    Images, reviews, ratings and marketing copy are presentation and are not part
    of a product here. */
module Catalog {
  import opened Basics

  datatype Category = Apparel | Headwear | Accessories

  /** A product as the cart and the order flow see it. `colors` holds the colour
      names only; the display swatch is presentation. */
  datatype Product = Product(
    id: string,
    name: string,
    price: int,
    category: Category,
    sizes: seq<string>,
    colors: seq<string>)

  const Tee := Product("tee-invisible", "The 'Invisible Logic' Heavyweight Tee", 650, Apparel,
                       ["XS", "S", "M", "L", "XL", "XXL"], ["Black", "White"])
  const Cap := Product("cap-respect", "The 'Respect The Stack' Snapback", 350, Headwear,
                       ["ONE SIZE"], ["Black", "Navy"])
  const Socks := Product("socks-aa", "The 'Attitude Adjustment' Socks", 150, Accessories,
                         ["6-9", "9-12"], ["Black", "White"])
  const Hoodie := Product("hoodie-champ", "The 'Champ Is Here' Dev Hoodie", 1200, Apparel,
                          ["S", "M", "L", "XL"], ["Black", "Charcoal"])

  const Products: seq<Product> := [Tee, Cap, Socks, Hoodie]

  /** Every catalogue product has a distinct id, a non-negative price and at
      least one colour. */
  lemma CatalogWellFormed()
    ensures forall i, j :: 0 <= i < j < |Products| ==> Products[i].id != Products[j].id
    ensures forall p :: p in Products ==> p.price >= 0 && |p.colors| > 0 && |p.sizes| > 0
  {
  }

  /** The category tabs: "All" or one category. */
  datatype CategoryFilter = All | Only(category: Category)

  predicate Shows(f: CategoryFilter, p: Product) {
    f.All? || p.category == f.category
  }

  /** The products listed under a category tab, in catalogue order. */
  function FilterByCategory(products: seq<Product>, f: CategoryFilter): (r: seq<Product>)
    ensures forall p :: p in r <==> p in products && Shows(f, p)
    ensures f.All? ==> r == products
    ensures |r| <= |products|
  {
    if f.All? then products else Filter(products, (p: Product) => p.category == f.category)
  }

  /** Filtering distributes over a split of the catalogue, so the listing keeps
      the catalogue's order. */
  lemma FilterByCategoryAppend(a: seq<Product>, b: seq<Product>, f: CategoryFilter)
    ensures FilterByCategory(a + b, f) == FilterByCategory(a, f) + FilterByCategory(b, f)
  {
    if f.Only? {
      FilterAppend(a, b, (p: Product) => p.category == f.category);
    }
  }

  /** `Array.find` over the catalogue by id: the first product with that id. */
  function FindById(products: seq<Product>, id: string): (r: Option<Product>)
    ensures r.None? <==> forall i :: 0 <= i < |products| ==> products[i].id != id
    ensures r.Some? ==> exists i :: 0 <= i < |products| && products[i] == r.value
                         && r.value.id == id
                         && forall j :: 0 <= j < i ==> products[j].id != id
  {
    if products == [] then None
    else if products[0].id == id then Some(products[0])
    else
      var rest := FindById(products[1..], id);
      if rest.Some? then
        ghost var k :| 0 <= k < |products[1..]| && products[1..][k] == rest.value
                       && rest.value.id == id
                       && forall j :: 0 <= j < k ==> products[1..][j].id != id;
        assert products[k + 1] == rest.value;
        rest
      else rest
  }

  /** The products shown in the wishlist drawer: catalogue products whose id is
      wishlisted, in catalogue order (not in wishlist order). */
  function WishlistProducts(products: seq<Product>, wishlist: seq<string>): (r: seq<Product>)
    ensures forall p :: p in r <==> p in products && p.id in wishlist
  {
    Filter(products, (p: Product) => p.id in wishlist)
  }

  /** The drawer keeps the catalogue's order: a split of the catalogue splits
      the drawer list the same way. */
  lemma WishlistProductsAppend(a: seq<Product>, b: seq<Product>, wishlist: seq<string>)
    ensures WishlistProducts(a + b, wishlist) == WishlistProducts(a, wishlist) + WishlistProducts(b, wishlist)
  {
    FilterAppend(a, b, (p: Product) => p.id in wishlist);
  }

  /** The drawer depends only on which ids are wishlisted, never on the order
      or multiplicity in which they were added. */
  lemma {:induction false} WishlistViewIgnoresOrder(products: seq<Product>, w1: seq<string>, w2: seq<string>)
    requires forall x :: x in w1 <==> x in w2
    ensures WishlistProducts(products, w1) == WishlistProducts(products, w2)
  {
    if products != [] {
      WishlistViewIgnoresOrder(products[1..], w1, w2);
    }
  }
}

=== FILE: diagrams.dfy ===
/** The small interactive diagrams: the eight-node loop whose nodes toggle on
    and off, the four-stage pipeline that advances on a timer, and the
    activity split shown for each time of day. */
module Diagrams {
  import opened Basics

  const TotalNodes := 8

  /** A node index the loop renders a button for. */
  predicate IsNode(i: int) { 0 <= i < TotalNodes }

  /** Clicking node `i`: it leaves the active list if it was there and joins
      at the end otherwise. */
  function ToggleNode(active: seq<int>, i: int): (r: seq<int>)
    ensures i in r <==> i !in active
    ensures forall j :: j != i ==> (j in r <==> j in active)
    ensures i !in active ==> r == active + [i]
  {
    Toggle(active, i)
  }

  /** The reachable shape of the active list: no node twice, only real nodes. */
  predicate ValidLoop(active: seq<int>) {
    NoDup(active) && forall k :: 0 <= k < |active| ==> IsNode(active[k])
  }

  /** Clicking a real node keeps the list valid. */
  lemma ToggleNodeKeepsValid(active: seq<int>, i: int)
    requires ValidLoop(active) && IsNode(i)
    ensures ValidLoop(ToggleNode(active, i))
  {
    ToggleNoDup(active, i);
    var r := ToggleNode(active, i);
    forall k | 0 <= k < |r| ensures IsNode(r[k]) {
      assert r[k] in r;
    }
  }

  /** Clicking the same node twice brings back the same active nodes, and the
      very same list when the node was inactive. */
  lemma ToggleNodeTwice(active: seq<int>, i: int)
    ensures forall j :: j in ToggleNode(ToggleNode(active, i), i) <==> j in active
    ensures i !in active ==> ToggleNode(ToggleNode(active, i), i) == active
  {
    ToggleTwice(active, i);
  }

  /** The state after a sequence of clicks from the empty loop. */
  function Clicks(active: seq<int>, clicks: seq<int>): seq<int>
    decreases |clicks|
  {
    if clicks == [] then active else Clicks(ToggleNode(active, clicks[0]), clicks[1..])
  }

  lemma {:induction false} ClicksKeepValid(active: seq<int>, clicks: seq<int>)
    requires ValidLoop(active)
    requires forall k :: 0 <= k < |clicks| ==> IsNode(clicks[k])
    ensures ValidLoop(Clicks(active, clicks))
    decreases |clicks|
  {
    if clicks != [] {
      ToggleNodeKeepsValid(active, clicks[0]);
      ClicksKeepValid(ToggleNode(active, clicks[0]), clicks[1..]);
    }
  }

  /** The loop shows "GENIUS" when the active list is as long as the ring. */
  predicate IsGenius(active: seq<int>) { |active| == TotalNodes }

  function Elements(xs: seq<int>): set<int> { set x | x in xs }

  lemma {:induction false} ElementsOfNoDup(xs: seq<int>)
    requires NoDup(xs)
    ensures |Elements(xs)| == |xs|
  {
    if xs != [] {
      var tail := xs[1..];
      assert NoDup(tail);
      ElementsOfNoDup(tail);
      assert Elements(xs) == Elements(tail) + {xs[0]};
      assert xs[0] !in Elements(tail);
    }
  }

  /** The node indices below `n`, as a set. */
  function Range(n: nat): (r: set<int>)
    ensures forall i :: i in r <==> 0 <= i < n
    ensures |r| == n
  {
    if n == 0 then {} else Range(n - 1) + {n - 1}
  }

  lemma SubsetSize(a: set<int>, b: set<int>)
    requires a <= b
    ensures |a| <= |b|
    ensures |a| == |b| ==> a == b
  {
    assert b == a + (b - a);
    if |a| == |b| {
      assert |b - a| == 0;
      assert b - a == {};
    }
  }

  /** Every element of `xs` lies in 0..n-1. */
  predicate Below(xs: seq<int>, n: nat) {
    forall k :: 0 <= k < |xs| ==> 0 <= xs[k] < n
  }

  lemma ElementsBelow(xs: seq<int>, n: nat)
    requires Below(xs, n)
    ensures Elements(xs) <= Range(n)
  {
    forall x | x in Elements(xs) ensures x in Range(n) {
      var k :| 0 <= k < |xs| && xs[k] == x;
    }
  }

  /** Pigeonhole: a duplicate-free list of values below `n` has at most `n`
      elements, and it has exactly `n` precisely when it holds every value. */
  lemma Pigeonhole(xs: seq<int>, n: nat)
    requires NoDup(xs) && Below(xs, n)
    ensures |xs| <= n
    ensures |xs| == n <==> forall i :: 0 <= i < n ==> i in xs
  {
    var e, all := Elements(xs), Range(n);
    ElementsBelow(xs, n);
    ElementsOfNoDup(xs);
    SubsetSize(e, all);
    if |xs| == n {
      forall i | 0 <= i < n ensures i in xs {
        assert i in e;
      }
    }
    if forall i :: 0 <= i < n ==> i in xs {
      assert e == all;
    }
  }

  /** No valid list is longer than the ring. */
  lemma ValidLoopBounded(active: seq<int>)
    requires ValidLoop(active)
    ensures |active| <= TotalNodes
  {
    Pigeonhole(active, TotalNodes);
  }

  /** On a valid list, "GENIUS" is shown exactly when every node is active. */
  lemma GeniusMeansAllActive(active: seq<int>)
    requires ValidLoop(active)
    ensures IsGenius(active) <==> forall i :: IsNode(i) ==> i in active
  {
    Pigeonhole(active, TotalNodes);
  }

  // ---------------------------------------------------------------------------
  // The pipeline

  const Stages := 4

  /** One timer tick: the highlighted stage moves on, wrapping after the last. */
  function NextStage(s: int): (r: int)
    requires 0 <= s
    ensures 0 <= r < Stages
    ensures s < Stages - 1 ==> r == s + 1
    ensures s == Stages - 1 ==> r == 0
  {
    (s + 1) % Stages
  }

  function Ticks(s: int, n: nat): int
    requires 0 <= s
  {
    if n == 0 then s else NextStage(Ticks(s, n - 1))
  }

  /** `n` ticks advance the stage by `n` around the cycle. */
  lemma {:induction false} TicksAdvance(s: int, n: nat)
    requires 0 <= s < Stages
    ensures Ticks(s, n) == (s + n) % Stages
  {
    if n > 0 {
      TicksAdvance(s, n - 1);
    }
  }

  /** Four ticks return to where the pipeline started, and it never leaves
      the four stages. */
  lemma FourTicksReturn(s: int, n: nat)
    requires 0 <= s < Stages
    ensures Ticks(s, Stages) == s
    ensures 0 <= Ticks(s, n) < Stages
  {
    TicksAdvance(s, Stages);
    TicksAdvance(s, n);
  }

  // ---------------------------------------------------------------------------
  // The activity split

  datatype Mode = Day | Night | Weekend

  /** The chart opens on the night split. */
  const DefaultMode := Night

  datatype Split = Split(accounting: int, coding: int, driving: int)

  /** The percentages shown for each mode. */
  function Allocation(m: Mode): (r: Split)
    ensures r.accounting + r.coding + r.driving == 100
    ensures 0 <= r.accounting && 0 <= r.coding && 0 <= r.driving
  {
    match m
    case Day => Split(80, 10, 10)
    case Night => Split(10, 80, 10)
    case Weekend => Split(20, 30, 50)
  }

  /** On opening, the chart shows coding as the largest share. */
  lemma OpeningSplitFavoursCoding()
    ensures var r := Allocation(DefaultMode);
      r.coding > r.accounting && r.coding > r.driving
  {
  }
}

=== FILE: ledger.dfy ===
/** The double-entry accounting simulator: seven balances in three groups
    (assets, liabilities, equity), five canned transactions, three of them
    guarded by balances, and a journal of the five most recent entries, newest first.
    Each transaction is checked against an independent double-entry posting
    rule, from which the balance equation follows. */
module Ledger {
  import opened Basics

  datatype Account = Cash | Equipment | Receivables | Payables | Loans | Capital | RetainedEarnings

  /** Asset accounts increase with a debit; liability and equity accounts
      increase with a credit. */
  predicate DebitNormal(a: Account) {
    a == Cash || a == Equipment || a == Receivables
  }

  datatype Books = Books(
    cash: int, equipment: int, receivables: int,
    payables: int, loans: int,
    capital: int, retainedEarnings: int)

  const OpeningBooks := Books(15000, 5000, 2000, 1000, 12000, 9000, 0)

  function TotalAssets(b: Books): int { b.cash + b.equipment + b.receivables }
  function TotalLiabilities(b: Books): int { b.payables + b.loans }
  function TotalEquity(b: Books): int { b.capital + b.retainedEarnings }

  /** The accounting equation: assets = liabilities + equity. */
  predicate Balanced(b: Books) {
    TotalAssets(b) == TotalLiabilities(b) + TotalEquity(b)
  }

  /** Balances that no transaction may drive below zero. Retained earnings
      may go negative (expenses have no guard); capital never moves. */
  predicate NonNegative(b: Books) {
    b.cash >= 0 && b.equipment >= 0 && b.receivables >= 0 && b.payables >= 0 && b.loans >= 0
  }

  /** The opening books: 22000 of assets against 13000 of liabilities and
      9000 of equity. */
  lemma OpeningBooksBalance()
    ensures TotalAssets(OpeningBooks) == 22000
    ensures TotalLiabilities(OpeningBooks) == 13000 && TotalEquity(OpeningBooks) == 9000
    ensures Balanced(OpeningBooks) && NonNegative(OpeningBooks)
  {
  }

  function BalanceOf(b: Books, a: Account): int {
    match a
    case Cash => b.cash
    case Equipment => b.equipment
    case Receivables => b.receivables
    case Payables => b.payables
    case Loans => b.loans
    case Capital => b.capital
    case RetainedEarnings => b.retainedEarnings
  }

  /** Move one account by `delta`, leaving every other account alone. */
  function Adjust(b: Books, a: Account, delta: int): (r: Books)
    ensures BalanceOf(r, a) == BalanceOf(b, a) + delta
    ensures forall o :: o != a ==> BalanceOf(r, o) == BalanceOf(b, o)
  {
    match a
    case Cash => b.(cash := b.cash + delta)
    case Equipment => b.(equipment := b.equipment + delta)
    case Receivables => b.(receivables := b.receivables + delta)
    case Payables => b.(payables := b.payables + delta)
    case Loans => b.(loans := b.loans + delta)
    case Capital => b.(capital := b.capital + delta)
    case RetainedEarnings => b.(retainedEarnings := b.retainedEarnings + delta)
  }

  /** The signed change a debit of `amount` makes to an account. */
  function DebitEffect(a: Account, amount: int): int {
    if DebitNormal(a) then amount else -amount
  }

  /** The reference rule: debit one account and credit another by the same
      amount. */
  function Post(b: Books, dr: Account, cr: Account, amount: int): (r: Books)
    ensures dr != cr ==> BalanceOf(r, dr) == BalanceOf(b, dr) + DebitEffect(dr, amount)
    ensures dr != cr ==> BalanceOf(r, cr) == BalanceOf(b, cr) - DebitEffect(cr, amount)
    ensures forall o :: o != dr && o != cr ==> BalanceOf(r, o) == BalanceOf(b, o)
  {
    Adjust(Adjust(b, dr, DebitEffect(dr, amount)), cr, -DebitEffect(cr, amount))
  }

  /** Assets minus liabilities minus equity: zero exactly when balanced. */
  function Gap(b: Books): int {
    TotalAssets(b) - TotalLiabilities(b) - TotalEquity(b)
  }

  /** How adjusting one account moves the gap. */
  lemma AdjustGap(b: Books, a: Account, delta: int)
    ensures Gap(Adjust(b, a, delta)) == Gap(b) + (if DebitNormal(a) then delta else -delta)
  {
  }

  /** The debit half of a posting raises the gap by the amount, whichever
      kind of account is debited. */
  lemma DebitRaisesGap(b: Books, dr: Account, amount: int)
    ensures Gap(Adjust(b, dr, DebitEffect(dr, amount))) == Gap(b) + amount
  {
    AdjustGap(b, dr, DebitEffect(dr, amount));
  }

  /** The credit half lowers it by the same amount. */
  lemma CreditLowersGap(b: Books, cr: Account, amount: int)
    ensures Gap(Adjust(b, cr, -DebitEffect(cr, amount))) == Gap(b) - amount
  {
    AdjustGap(b, cr, -DebitEffect(cr, amount));
  }

  /** Every equal-amount debit/credit pair leaves the gap where it was, so
      posting keeps the equation in whichever state it was. */
  lemma PostingKeepsEquation(b: Books, dr: Account, cr: Account, amount: int)
    ensures Gap(Post(b, dr, cr, amount)) == Gap(b)
    ensures Balanced(b) <==> Balanced(Post(b, dr, cr, amount))
  {
    DebitRaisesGap(b, dr, amount);
    CreditLowersGap(Adjust(b, dr, DebitEffect(dr, amount)), cr, amount);
  }

  // ---------------------------------------------------------------------------
  // The five transactions

  datatype Transaction = InvoiceClient | CollectCash | BuyEquipment | PayLoan | IncurExpense

  function Amount(t: Transaction): int {
    match t
    case InvoiceClient => 1500
    case CollectCash => 1000
    case BuyEquipment => 2000
    case PayLoan => 1000
    case IncurExpense => 500
  }

  function Description(t: Transaction): string {
    match t
    case InvoiceClient => "Invoice Ride-Hail Client"
    case CollectCash => "Collect Payment"
    case BuyEquipment => "Buy Server Hardware"
    case PayLoan => "Pay Tuition Loan"
    case IncurExpense => "Cloud Hosting Bill"
  }

  /** The journal's debit and credit captions. */
  function DebitLabel(t: Transaction): string {
    match t
    case InvoiceClient => "Accounts Receivable"
    case CollectCash => "Cash"
    case BuyEquipment => "Equipment"
    case PayLoan => "Loans Payable"
    case IncurExpense => "OpEx Expense"
  }

  function CreditLabel(t: Transaction): string {
    match t
    case InvoiceClient => "Revenue"
    case CollectCash => "Accounts Receivable"
    case BuyEquipment => "Cash"
    case PayLoan => "Cash"
    case IncurExpense => "Accounts Payable"
  }

  /** The balance each caption stands for; revenue and expense are closed into
      retained earnings. */
  function DebitAccount(t: Transaction): Account {
    match t
    case InvoiceClient => Receivables
    case CollectCash => Cash
    case BuyEquipment => Equipment
    case PayLoan => Loans
    case IncurExpense => RetainedEarnings
  }

  function CreditAccount(t: Transaction): Account {
    match t
    case InvoiceClient => RetainedEarnings
    case CollectCash => Receivables
    case BuyEquipment => Cash
    case PayLoan => Cash
    case IncurExpense => Payables
  }

  /** The guards: collecting needs 1000 receivable, buying equipment needs 2000
      cash, repaying needs 1000 cash and 1000 owed. */
  predicate Enabled(b: Books, t: Transaction) {
    match t
    case CollectCash => b.receivables >= 1000
    case BuyEquipment => b.cash >= 2000
    case PayLoan => b.cash >= 1000 && b.loans >= 1000
    case _ => true
  }

  /** Each guard is exactly what keeps the guarded balances from going
      negative: from non-negative books, a transaction is enabled iff its
      effects leave them non-negative. */
  lemma GuardsAreExact(b: Books, t: Transaction)
    requires NonNegative(b)
    ensures Enabled(b, t) <==> NonNegative(Effects(b, t))
  {
  }

  /** The balance updates exactly as each handler writes them. They agree
      with the double-entry posting of the journal line's accounts. */
  function Effects(b: Books, t: Transaction): (r: Books)
    ensures r == Post(b, DebitAccount(t), CreditAccount(t), Amount(t))
  {
    match t
    case InvoiceClient =>
      b.(receivables := b.receivables + 1500, retainedEarnings := b.retainedEarnings + 1500)
    case CollectCash =>
      b.(cash := b.cash + 1000, receivables := b.receivables - 1000)
    case BuyEquipment =>
      b.(cash := b.cash - 2000, equipment := b.equipment + 2000)
    case PayLoan =>
      b.(cash := b.cash - 1000, loans := b.loans - 1000)
    case IncurExpense =>
      b.(payables := b.payables + 500, retainedEarnings := b.retainedEarnings - 500)
  }

  // ---------------------------------------------------------------------------
  // The simulator

  /** A journal line: one amount stands for both the debit and the credit. */
  datatype Entry = Entry(id: int, desc: string, dr: string, cr: string, amount: int)

  datatype Simulator = Simulator(books: Books, journal: seq<Entry>, lastAction: Option<string>)

  const JournalLimit := 5

  const Opening := Simulator(OpeningBooks, [], None)

  function EntryFor(t: Transaction, now: int): Entry {
    Entry(now, Description(t), DebitLabel(t), CreditLabel(t), Amount(t))
  }


  /** The first `n` elements, or all of them when there are fewer. */
  function Take<T>(xs: seq<T>, n: nat): (r: seq<T>)
    ensures |r| == Min(n, |xs|) && r == xs[..|r|]
  {
    if |xs| <= n then xs else xs[..n]
  }

  /** Put the new line in front and keep the five most recent. */
  function Record(journal: seq<Entry>, e: Entry): (r: seq<Entry>)
    ensures |r| == Min(|journal| + 1, JournalLimit)
    ensures r[0] == e && r[1..] == journal[..|r| - 1]
  {
    Take([e] + journal, JournalLimit)
  }

  /** One click on a transaction button. `now` stands for the clock reading
      used as the journal id. A failed guard changes nothing. */
  function Apply(sim: Simulator, t: Transaction, now: int): (r: Simulator)
    ensures !Enabled(sim.books, t) ==> r == sim
    ensures Enabled(sim.books, t) ==>
      && r.books == Effects(sim.books, t)
      && r.journal == Record(sim.journal, EntryFor(t, now))
      && r.lastAction == Some(Description(t))
    ensures Balanced(sim.books) ==> Balanced(r.books)
    ensures NonNegative(sim.books) ==> NonNegative(r.books)
    ensures |r.journal| <= JournalLimit || r.journal == sim.journal
  {
    if Enabled(sim.books, t) then
      PostingKeepsEquation(sim.books, DebitAccount(t), CreditAccount(t), Amount(t));
      Simulator(Effects(sim.books, t), Record(sim.journal, EntryFor(t, now)), Some(Description(t)))
    else sim
  }

  /** The one-second timer that clears the last-action highlight. */
  function ExpireLastAction(sim: Simulator): (r: Simulator)
    ensures r.lastAction.None? && r.books == sim.books && r.journal == sim.journal
  {
    sim.(lastAction := None)
  }

  // ---------------------------------------------------------------------------
  // Sessions

  datatype Click = Click(t: Transaction, now: int)

  /** The state after a sequence of clicks, oldest first. */
  function Run(sim: Simulator, clicks: seq<Click>): Simulator
    decreases |clicks|
  {
    if clicks == [] then sim
    else
      var last := clicks[|clicks| - 1];
      Apply(Run(sim, clicks[..|clicks| - 1]), last.t, last.now)
  }

  /** Every entry the session actually posted, newest first. */
  function Posted(sim: Simulator, clicks: seq<Click>): seq<Entry>
    decreases |clicks|
  {
    if clicks == [] then []
    else
      var prefix := clicks[..|clicks| - 1];
      var last := clicks[|clicks| - 1];
      if Enabled(Run(sim, prefix).books, last.t) then [EntryFor(last.t, last.now)] + Posted(sim, prefix)
      else Posted(sim, prefix)
  }

  /** From an empty journal, the journal is always the five most recently
      posted entries, newest first. */
  lemma {:induction false} JournalIsRecentHistory(sim: Simulator, clicks: seq<Click>)
    requires sim.journal == []
    ensures Run(sim, clicks).journal == Take(Posted(sim, clicks), JournalLimit)
  {
    if clicks != [] {
      var prefix := clicks[..|clicks| - 1];
      var last := clicks[|clicks| - 1];
      JournalIsRecentHistory(sim, prefix);
      var before := Run(sim, prefix);
      if Enabled(before.books, last.t) {
        var p := Posted(sim, prefix);
        var e := EntryFor(last.t, last.now);
        var n := Min(|p| + 1, JournalLimit);
        assert Take([e] + p, JournalLimit) == ([e] + Take(p, JournalLimit))[..n];
      }
    }
  }

  /** Any session from balanced, non-negative books stays balanced and
      non-negative, and its journal never exceeds five lines. */
  /** From the opening books and an empty journal, any session stays balanced
      with non-negative guarded balances and shows its five latest postings. */
  lemma OpeningSessions(clicks: seq<Click>)
    ensures Balanced(Run(Opening, clicks).books) && NonNegative(Run(Opening, clicks).books)
    ensures Run(Opening, clicks).journal == Take(Posted(Opening, clicks), JournalLimit)
  {
    OpeningBooksBalance();
    RunKeepsInvariants(Opening, clicks);
    JournalIsRecentHistory(Opening, clicks);
  }

  lemma {:induction false} RunKeepsInvariants(sim: Simulator, clicks: seq<Click>)
    requires Balanced(sim.books) && NonNegative(sim.books) && |sim.journal| <= JournalLimit
    ensures Balanced(Run(sim, clicks).books) && NonNegative(Run(sim, clicks).books)
    ensures |Run(sim, clicks).journal| <= JournalLimit
  {
    if clicks != [] {
      RunKeepsInvariants(sim, clicks[..|clicks| - 1]);
    }
  }

  predicate ClockMonotone(clicks: seq<Click>) {
    forall i, j :: 0 <= i < j < |clicks| ==> clicks[i].now <= clicks[j].now
  }

  lemma {:induction false} PostedIdsBounded(sim: Simulator, clicks: seq<Click>, bound: int)
    requires forall i :: 0 <= i < |clicks| ==> clicks[i].now <= bound
    ensures forall k :: 0 <= k < |Posted(sim, clicks)| ==> Posted(sim, clicks)[k].id <= bound
  {
    if clicks != [] {
      PostedIdsBounded(sim, clicks[..|clicks| - 1], bound);
    }
  }

  /** With a clock that never runs backwards, journal ids never increase from
      the top of the journal down. */
  lemma {:induction false} JournalNewestFirst(sim: Simulator, clicks: seq<Click>)
    requires sim.journal == [] && ClockMonotone(clicks)
    ensures var j := Run(sim, clicks).journal;
      forall a, b :: 0 <= a < b < |j| ==> j[a].id >= j[b].id
  {
    PostedSorted(sim, clicks);
    JournalIsRecentHistory(sim, clicks);
  }

  lemma {:induction false} PostedSorted(sim: Simulator, clicks: seq<Click>)
    requires ClockMonotone(clicks)
    ensures var p := Posted(sim, clicks);
      forall a, b :: 0 <= a < b < |p| ==> p[a].id >= p[b].id
  {
    if clicks != [] {
      var prefix := clicks[..|clicks| - 1];
      var last := clicks[|clicks| - 1];
      assert ClockMonotone(prefix);
      PostedSorted(sim, prefix);
      assert forall x, y :: 0 <= x < y < |Posted(sim, prefix)| ==> Posted(sim, prefix)[x].id >= Posted(sim, prefix)[y].id;
      if Enabled(Run(sim, prefix).books, last.t) {
        assert forall i :: 0 <= i < |prefix| ==> prefix[i].now <= last.now by {
          forall i | 0 <= i < |prefix| ensures prefix[i].now <= last.now {
            assert prefix[i] == clicks[i];
          }
        }
        PostedIdsBounded(sim, prefix, last.now);
        var p := Posted(sim, prefix);
        var q := Posted(sim, clicks);
        assert q == [EntryFor(last.t, last.now)] + p;
        forall a, b | 0 <= a < b < |q| ensures q[a].id >= q[b].id {
          assert q[b] == p[b - 1];
          if a > 0 {
            assert q[a] == p[a - 1];
          }
        }
      }
    }
  }
}

=== FILE: patron.dfy ===
/** The donation wizard: six steps (1 amount, 2 details, 3 method, 4 card
    entry, 5 processing, 6 success). Each event stands for a button, input or
    timer that exists only on one step; at any other step the event is not
    available and changes nothing. The entered amount is the integer the text
    field denotes, with 0 standing for an empty or non-numeric field. */
module Patron {

  datatype Tier = Coffee | Hardware | Tuition

  function TierAmount(t: Tier): int {
    match t
    case Coffee => 50
    case Hardware => 500
    case Tuition => 2000
  }

  /** `selectedTier`: nothing yet, a preset tier, or 'custom'. */
  datatype TierChoice = NoTier | Preset(tier: Tier) | Custom

  datatype PaymentMethod = Card | PayPal | Crypto | Eft

  datatype Wizard = Wizard(
    step: int,
    selectedTier: TierChoice,
    amount: int,
    donorName: string,
    message: string,
    payment: PaymentMethod)

  /** The state when the modal is mounted; closing unmounts it, so every
      opening starts here. */
  const Initial := Wizard(1, NoTier, 0, "", "", Card)

  datatype Event =
    | SelectTier(tier: Tier)
    | EnterAmount(value: int)
    | Continue
    | EditName(name: string)
    | EditMessage(text: string)
    | SubmitDetails
    | BackToAmount
    | ChooseMethod(m: PaymentMethod)
    | BackToDetails
    | ProceedToCard
    | BackToMethod
    | Pay
    | PaymentSettled

  /** The step that renders the control behind each event. */
  function HomeStep(e: Event): int {
    match e
    case SelectTier(_) => 1
    case EnterAmount(_) => 1
    case Continue => 1
    case EditName(_) => 2
    case EditMessage(_) => 2
    case SubmitDetails => 2
    case BackToAmount => 2
    case ChooseMethod(_) => 3
    case BackToDetails => 3
    case ProceedToCard => 3
    case BackToMethod => 4
    case Pay => 4
    case PaymentSettled => 5
  }

  /** The wizard's invariant: a step in 1..6, and every step past the first
      holds a positive amount. */
  predicate Valid(w: Wizard) {
    1 <= w.step <= 6 && (w.step >= 2 ==> w.amount > 0)
  }

  /** The step changes the wizard can make: forward and back between
      neighbouring steps up to the card form, then forward only. */
  predicate AllowedMove(from: int, to: int) {
    (from == 1 && to == 2) || (from == 2 && to == 1) || (from == 2 && to == 3)
    || (from == 3 && to == 2) || (from == 3 && to == 4) || (from == 4 && to == 3)
    || (from == 4 && to == 5) || (from == 5 && to == 6)
  }

  /** One event. Picking a tier fills in its amount; typing an amount marks the
      choice custom; Continue needs a positive amount; the details form needs
      a name (the field is required); the card form and the processing timer
      advance unconditionally. */
  function Step(w: Wizard, e: Event): (r: Wizard)
    ensures w.step != HomeStep(e) ==> r == w
    ensures e.SelectTier? && w.step == 1 ==>
      r == w.(selectedTier := Preset(e.tier), amount := TierAmount(e.tier))
    ensures e.EnterAmount? && w.step == 1 ==>
      r == w.(selectedTier := Custom, amount := e.value)
    ensures r.step == 2 && w.step == 1 ==> e == Continue && w.amount > 0
    ensures w.step == 1 && e == Continue ==> (r.step == 2 <==> w.amount > 0)
    ensures w.step == 1 && e == Continue ==> r == (if w.amount > 0 then w.(step := 2) else w)
    ensures w.step == 2 && e.EditName? ==> r == w.(donorName := e.name)
    ensures w.step == 2 && e.EditMessage? ==> r == w.(message := e.text)
    ensures w.step == 2 && e == SubmitDetails ==> (r.step == 3 <==> w.donorName != "")
    ensures w.step == 2 && e == SubmitDetails ==> r == (if w.donorName != "" then w.(step := 3) else w)
    ensures w.step == 2 && e == BackToAmount ==> r == w.(step := 1)
    ensures w.step == 3 && e.ChooseMethod? ==> r == w.(payment := e.m)
    ensures w.step == 3 && e == BackToDetails ==> r == w.(step := 2)
    ensures w.step == 3 && e == ProceedToCard ==> r == w.(step := 4)
    ensures w.step == 4 && e == BackToMethod ==> r == w.(step := 3)
    ensures w.step == 4 && e == Pay ==> r == w.(step := 5)
    ensures w.step == 5 && e == PaymentSettled ==> r == w.(step := 6)
    ensures r.step != w.step ==> AllowedMove(w.step, r.step)
    ensures r.step == w.step ==> r.amount == w.amount || e.SelectTier? || e.EnterAmount?
    ensures Valid(w) ==> Valid(r)
  {
    if w.step != HomeStep(e) then w
    else
      match e
      case SelectTier(t) => w.(selectedTier := Preset(t), amount := TierAmount(t))
      case EnterAmount(v) => w.(selectedTier := Custom, amount := v)
      case Continue => if w.amount > 0 then w.(step := 2) else w
      case EditName(n) => w.(donorName := n)
      case EditMessage(m) => w.(message := m)
      case SubmitDetails => if w.donorName != "" then w.(step := 3) else w
      case BackToAmount => w.(step := 1)
      case ChooseMethod(m) => w.(payment := m)
      case BackToDetails => w.(step := 2)
      case ProceedToCard => w.(step := 4)
      case BackToMethod => w.(step := 3)
      case Pay => w.(step := 5)
      case PaymentSettled => w.(step := 6)
  }

  /** The state after a sequence of events, oldest first. */
  function Run(w: Wizard, events: seq<Event>): Wizard
    decreases |events|
  {
    if events == [] then w else Run(Step(w, events[0]), events[1..])
  }

  /** Every session from the opening state keeps the step in 1..6, and past
      the first step the amount is positive. */
  lemma {:induction false} RunStaysValid(w: Wizard, events: seq<Event>)
    requires Valid(w)
    ensures Valid(Run(w, events))
    decreases |events|
  {
    if events != [] {
      RunStaysValid(Step(w, events[0]), events[1..]);
    }
  }

  lemma InitialValid()
    ensures Valid(Initial)
  {
  }

  /** Any session from step 1 that got past it passed through a Continue
      taken on step 1 with a positive amount. */
  lemma {:induction false} LeavingAmountNeedsContinue(w: Wizard, events: seq<Event>)
    requires w.step == 1
    requires Run(w, events).step != 1
    ensures exists k ::
              && 0 <= k < |events| && events[k] == Continue
              && Run(w, events[..k]).step == 1 && Run(w, events[..k]).amount > 0
    decreases |events|
  {
    if events != [] {
      var next := Step(w, events[0]);
      assert events[..0] == [];
      if next.step == 1 {
        var rest := events[1..];
        LeavingAmountNeedsContinue(next, rest);
        var k :|
          && 0 <= k < |rest| && rest[k] == Continue
          && Run(next, rest[..k]).step == 1 && Run(next, rest[..k]).amount > 0;
        RunPrefix(w, events, k + 1);
        assert events[k + 1] == Continue;
      } else {
        assert events[0] == Continue;
      }
    }
  }

  /** Running a prefix of one or more events is the first step followed by
      the rest of the prefix. */
  lemma RunPrefix(w: Wizard, events: seq<Event>, n: int)
    requires 1 <= n <= |events|
    ensures Run(w, events[..n]) == Run(Step(w, events[0]), events[1..][..n - 1])
  {
    var p := events[..n];
    assert p[0] == events[0];
    assert p[1..] == events[1..][..n - 1];
  }

  /** Without a positive amount nothing moves the wizard off step 1. */
  lemma NoAmountStaysOnFirstStep(w: Wizard, e: Event)
    requires w.step == 1 && w.amount <= 0 && !e.SelectTier? && !e.EnterAmount?
    ensures Step(w, e) == w
  {
  }

  /** A full donation: pick the coffee tier, name the donor, pay by card. */
  lemma CoffeeDonationCompletes()
    ensures Run(Initial, [SelectTier(Coffee), Continue, EditName("Ada"), SubmitDetails,
                          ProceedToCard, Pay, PaymentSettled])
         == Wizard(6, Preset(Coffee), 50, "Ada", "", Card)
  {
  }

  /** An empty custom amount keeps the wizard on step 1. */
  lemma EmptyAmountBlocksContinue()
    ensures Run(Initial, [SelectTier(Hardware), EnterAmount(0), Continue]).step == 1
  {
  }
}

=== FILE: shop.dfy ===
/** The storefront page's state container: the cart, the mock user with its
    order history and wishlist, the checkout that turns the cart into an order,
    the product quick view's add button, and the single-slot notification.
    Every handler is a pure function from page state to page state; the login
    and checkout delays are folded into one atomic step each. */
module Shop {
  import opened Basics
  import opened Catalog
  import opened Cart

  datatype Provider = Google | Apple

  datatype OrderStatus = Processing | Shipped | Delivered

  /** An order: an immutable snapshot of the cart at checkout. */
  datatype Order = Order(id: string, date: string, items: seq<CartItem>, total: int, status: OrderStatus)

  /** The mock profile; `orders` is newest first, `wishlist` holds product ids. */
  datatype UserProfile = UserProfile(
    name: string,
    email: string,
    avatar: string,
    provider: Provider,
    orders: seq<Order>,
    wishlist: seq<string>)

  datatype ToastKind = Success | Info | Error

  /** The one notification slot; a new message always replaces the old one. */
  datatype Toast = Toast(msg: string, kind: ToastKind, visible: bool)

  datatype ShopState = ShopState(
    cart: seq<CartItem>,
    user: Option<UserProfile>,
    showAuthModal: bool,
    cartOpen: bool,
    accountOpen: bool,
    wishlistOpen: bool,
    quickView: Option<Product>,
    category: CategoryFilter,
    toast: Toast,
    lastOrder: seq<CartItem>,
    lastOrderId: string,
    orderComplete: bool)

  const Initial := ShopState([], None, false, false, false, false, None, All,
                             Toast("", Info, false), [], "", false)

  /** Every recorded order carries the subtotal of its own items and is still
      `Processing` (nothing on the page ever advances an order's status). */
  predicate OrdersConsistent(orders: seq<Order>) {
    forall i :: 0 <= i < |orders| ==>
      orders[i].total == Subtotal(orders[i].items) && orders[i].status == Processing
  }

  /** A signed-in profile's invariant: a duplicate-free wishlist and a
      consistent order history. */
  predicate ProfileValid(u: UserProfile) {
    NoDup(u.wishlist) && OrdersConsistent(u.orders)
  }

  /** The page invariant: a well-formed cart and, when signed in, a valid
      profile. */
  predicate Valid(s: ShopState) {
    WellFormed(s.cart) && (s.user.Some? ==> ProfileValid(s.user.value))
  }

  lemma InitialValid()
    ensures Valid(Initial) && Initial.cart == [] && Initial.user.None?
  {
  }

  function Show(s: ShopState, msg: string, kind: ToastKind): ShopState {
    s.(toast := Toast(msg, kind, true))
  }

  /** The notification's close button and its three-second timer. */
  function DismissToast(s: ShopState): (r: ShopState)
    ensures !r.toast.visible && r.toast.msg == s.toast.msg && r.toast.kind == s.toast.kind
    ensures r == s.(toast := r.toast)
  {
    s.(toast := s.toast.(visible := false))
  }

  // ---------------------------------------------------------------------------
  // Cart handlers

  /** Add one unit, announce it and open the cart drawer. */
  function OnAddToCart(s: ShopState, p: Product, size: string, color: string): (r: ShopState)
    ensures r == s.(cart := r.cart, cartOpen := true, toast := r.toast)
    ensures r.cart == AddToCart(s.cart, p, size, color)
    ensures r.toast == Toast("Added " + p.name + " to cart", Success, true)
    ensures Valid(s) ==> Valid(r)
  {
    Show(s.(cart := AddToCart(s.cart, p, size, color), cartOpen := true),
         "Added " + p.name + " to cart", Success)
  }

  function OnRemoveFromCart(s: ShopState, id: string): (r: ShopState)
    ensures r == s.(cart := r.cart, toast := r.toast)
    ensures r.cart == RemoveFromCart(s.cart, id)
    ensures !HasLine(r.cart, id)
    ensures forall x :: x in r.cart <==> x in s.cart && x.cartId != id
    ensures r.toast == Toast("Item removed from cart", Info, true)
    ensures Valid(s) ==> Valid(r)
  {
    Show(s.(cart := RemoveFromCart(s.cart, id)), "Item removed from cart", Info)
  }

  /** Clearing needs the shopper's confirmation; a declined prompt changes
      nothing at all. */
  function OnClearCart(s: ShopState, confirmed: bool): (r: ShopState)
    ensures !confirmed ==> r == s
    ensures confirmed ==> r.cart == [] && r == s.(cart := [], toast := r.toast)
    ensures Valid(s) ==> Valid(r)
  {
    if confirmed then Show(s.(cart := []), "Cart cleared", Info) else s
  }

  function OnUpdateQuantity(s: ShopState, id: string, delta: int): (r: ShopState)
    ensures r == s.(cart := r.cart)
    ensures r.cart == UpdateQuantity(s.cart, id, delta)
    ensures QuantitiesPositive(s.cart) ==> QuantitiesPositive(r.cart)
    ensures Valid(s) ==> Valid(r)
  {
    s.(cart := UpdateQuantity(s.cart, id, delta))
  }

  // ---------------------------------------------------------------------------
  // Authentication

  const GoogleAvatar := "https://images.unsplash.com/photo-1535713875002-d1d0cf377fde?q=80&w=100&auto=format&fit=crop"
  const AppleAvatar := "https://images.unsplash.com/photo-1633332755192-727a05c4013d?q=80&w=100&auto=format&fit=crop"

  /** The profile the mock login produces; it depends on the provider only. */
  function MockProfile(provider: Provider): (r: UserProfile)
    ensures r.provider == provider && r.orders == [] && r.wishlist == []
  {
    match provider
    case Google => UserProfile("Neo Developer", "neo@code.dev", GoogleAvatar, Google, [], [])
    case Apple => UserProfile("Apple User", "user@icloud.com", AppleAvatar, Apple, [], [])
  }

  /** Login always succeeds and always starts from an empty history and an
      empty wishlist, replacing any previous profile; the cart is untouched. */
  function Login(s: ShopState, provider: Provider): (r: ShopState)
    ensures r.user.Some? && r.user.value.provider == provider
    ensures r.user.value.orders == [] && r.user.value.wishlist == []
    ensures !r.showAuthModal
    ensures r == s.(user := r.user, showAuthModal := false, toast := r.toast)
    ensures r.toast.kind == Success && r.toast.visible
    ensures Valid(s) ==> Valid(r)
  {
    var u := MockProfile(provider);
    Show(s.(user := Some(u), showAuthModal := false), "Welcome back, " + u.name, Success)
  }

  /** Logout forgets the profile and closes the account and wishlist drawers;
      the cart survives. */
  function Logout(s: ShopState): (r: ShopState)
    ensures r.user.None? && !r.accountOpen && !r.wishlistOpen
    ensures r.cart == s.cart
    ensures r == s.(user := None, accountOpen := false, wishlistOpen := false, toast := r.toast)
    ensures Valid(s) ==> Valid(r)
  {
    Show(s.(user := None, accountOpen := false, wishlistOpen := false), "Logged out successfully", Info)
  }

  // ---------------------------------------------------------------------------
  // Wishlist

  const AddedMsg := "Added to Wishlist"
  const RemovedMsg := "Removed from Wishlist"

  /** `after` is `before` with `id` toggled: `id` changes membership, nothing
      else does, and a newly added id goes at the end. */
  ghost predicate WishlistToggled(before: seq<string>, after: seq<string>, id: string) {
    && (id in after <==> id !in before)
    && (forall x :: x != id ==> (x in after <==> x in before))
    && (id !in before ==> after == before + [id])
  }

  /** The profile with `productId` toggled in its wishlist. */
  function WithToggled(u: UserProfile, productId: string): (v: UserProfile)
    ensures v == u.(wishlist := v.wishlist)
    ensures WishlistToggled(u.wishlist, v.wishlist, productId)
    ensures ProfileValid(u) ==> ProfileValid(v)
  {
    var w := Toggle(u.wishlist, productId);
    assert NoDup(u.wishlist) ==> NoDup(w) by {
      if NoDup(u.wishlist) { ToggleNoDup(u.wishlist, productId); }
    }
    u.(wishlist := w)
  }

  /** Without a user the toggle only opens the sign-in prompt. With one, the
      id is removed when present and appended otherwise, and the notification
      says which. */
  function ToggleWishlist(s: ShopState, productId: string): (r: ShopState)
    ensures s.user.None? ==> r == s.(showAuthModal := true)
    ensures s.user.Some? ==>
      && r == s.(user := Some(WithToggled(s.user.value, productId)), toast := r.toast)
      && r.toast.kind == (if productId in s.user.value.wishlist then Info else Success)
    ensures Valid(s) ==> Valid(r)
  {
    if s.user.None? then s.(showAuthModal := true)
    else
      var removing := productId in s.user.value.wishlist;
      Show(s.(user := Some(WithToggled(s.user.value, productId))),
           if removing then RemovedMsg else AddedMsg, if removing then Info else Success)
  }

  /** Toggling the same product twice restores the wishlist's contents, hence
      the drawer's product list; the exact list comes back when the product
      was not wishlisted before. */
  lemma ToggleWishlistTwice(s: ShopState, productId: string)
    requires s.user.Some?
    ensures var r := ToggleWishlist(ToggleWishlist(s, productId), productId);
      && r.user.Some?
      && r.user.value == s.user.value.(wishlist := r.user.value.wishlist)
      && (forall x :: x in r.user.value.wishlist <==> x in s.user.value.wishlist)
      && (forall products: seq<Product> ::
            WishlistProducts(products, r.user.value.wishlist) == WishlistProducts(products, s.user.value.wishlist))
      && (productId !in s.user.value.wishlist ==> r.user == s.user)
  {
    var u := s.user.value;
    var v := WithToggled(WithToggled(u, productId), productId);
    var s1 := ToggleWishlist(s, productId);
    assert s1.user == Some(WithToggled(u, productId));
    assert ToggleWishlist(s1, productId).user == Some(v);
    WithToggledTwice(u, productId);
    forall products: seq<Product>
      ensures WishlistProducts(products, v.wishlist) == WishlistProducts(products, u.wishlist)
    {
      WishlistViewIgnoresOrder(products, v.wishlist, u.wishlist);
    }
  }

  lemma WithToggledTwice(u: UserProfile, productId: string)
    ensures var v := WithToggled(WithToggled(u, productId), productId);
      && v == u.(wishlist := v.wishlist)
      && (forall x :: x in v.wishlist <==> x in u.wishlist)
      && (productId !in u.wishlist ==> v == u)
  {
    ToggleTwice(u.wishlist, productId);
  }

  /** The wishlist drawer's remove button: looks the id up in the catalogue and
      toggles the product when found. */
  function WishlistDrawerRemove(s: ShopState, id: string): (r: ShopState)
    ensures (forall i :: 0 <= i < |Products| ==> Products[i].id != id) ==> r == s
    ensures (exists i :: 0 <= i < |Products| && Products[i].id == id) ==> r == ToggleWishlist(s, id)
  {
    match FindById(Products, id)
    case None => s
    case Some(p) => ToggleWishlist(s, p.id)
  }

  // ---------------------------------------------------------------------------
  // Checkout

  function DigitChar(d: nat): char
    requires d < 10
  {
    ('0' as int + d) as char
  }

  /** Decimal notation of a natural number, most significant digit first. */
  function Decimal(n: nat): (r: string)
    ensures |r| >= 1
    ensures forall i :: 0 <= i < |r| ==> '0' <= r[i] <= '9'
  {
    if n < 10 then [DigitChar(n)] else Decimal(n / 10) + [DigitChar(n % 10)]
  }

  /** Reading a string of digits back as a number, left to right. */
  function DigitsValue(s: string): int {
    if s == [] then 0 else 10 * DigitsValue(s[..|s| - 1]) + (s[|s| - 1] as int - '0' as int)
  }

  /** Reading back the decimal notation gives the number: the notation loses
      nothing. */
  lemma {:induction false} DecimalRoundTrip(n: nat)
    ensures DigitsValue(Decimal(n)) == n
  {
    var d := Decimal(n);
    if n >= 10 {
      DecimalRoundTrip(n / 10);
      assert d[..|d| - 1] == Decimal(n / 10);
    }
  }

  lemma {:induction false} DecimalAtMostSixDigits(n: nat)
    requires n < 1000000
    ensures |Decimal(n)| <= 6
  {
    if n >= 10 {
      DecimalShorter(n / 10, 5);
    }
  }

  function Pow10(k: nat): nat {
    if k == 0 then 1 else 10 * Pow10(k - 1)
  }

  lemma {:induction false} DecimalShorter(n: nat, k: nat)
    requires 1 <= k && n < Pow10(k)
    ensures |Decimal(n)| <= k
  {
    if n >= 10 {
      assert Pow10(1) == 10;
      assert k != 1;
      DecimalShorter(n / 10, k - 1);
    }
  }

  /** `String.padEnd`: extend to `len` characters with `c` on the right. */
  function PadEnd(s: string, len: nat, c: char): (r: string)
    ensures |s| >= len ==> r == s
    ensures |s| < len ==> |r| == len && r[..|s|] == s && forall i :: |s| <= i < len ==> r[i] == c
  {
    if |s| >= len then s else s + seq(len - |s|, _ => c)
  }

  /** The order number: "NQ-" and the random draw in decimal, padded on the
      right with zeros to nine characters. */
  function OrderId(draw: nat): (r: string)
    ensures var digits := Decimal(draw);
      && |r| == (if 3 + |digits| < 9 then 9 else 3 + |digits|)
      && r[..3] == "NQ-"
      && r[3..3 + |digits|] == digits
      && forall i :: 3 + |digits| <= i < |r| ==> r[i] == '0'
    ensures draw < 1000000 ==> |r| == 9
  {
    var digits := Decimal(draw);
    var raw := "NQ-" + digits;
    assert raw[..3] == "NQ-" && raw[3..] == digits;
    assert draw < 1000000 ==> |raw| <= 9 by {
      if draw < 1000000 { DecimalAtMostSixDigits(draw); }
    }
    PadEnd(raw, 9, '0')
  }

  /** The digits after "NQ-" read back as the draw. */
  lemma OrderIdShowsDraw(draw: nat)
    ensures var r := OrderId(draw);
      DigitsValue(r[3..3 + |Decimal(draw)|]) == draw
  {
    DecimalRoundTrip(draw);
  }

  /** Multiplying by ten appends a zero digit. */
  lemma DecimalTimesTen(n: nat)
    requires n >= 1
    ensures Decimal(10 * n) == Decimal(n) + "0"
  {
    assert (10 * n) / 10 == n && (10 * n) % 10 == 0;
  }

  /** Right-padding makes short draws collide with long ones: draws 5 and
      500000 give the same order number. */
  lemma OrderIdsCanCollide()
    ensures OrderId(5) == OrderId(500000) == "NQ-500000"
  {
    assert Decimal(5) == "5";
    DecimalTimesTen(5);
    DecimalTimesTen(50);
    DecimalTimesTen(500);
    DecimalTimesTen(5000);
    DecimalTimesTen(50000);
    assert Decimal(500000) == "500000";
    assert PadEnd("NQ-5", 9, '0') == "NQ-5" + "00000";
  }

  /** Checkout: without a user the cart closes and the sign-in prompt opens,
      nothing else changes. With a user, an order snapshotting the cart with
      its subtotal and status `Processing` is put in front of the history,
      the cart empties and the confirmation view is shown. `draw` stands for
      the random number behind the order id and `date` for today's date. */
  function Checkout(s: ShopState, draw: nat, date: string): (r: ShopState)
    ensures s.user.None? ==> r == s.(cartOpen := false, showAuthModal := true)
    ensures s.user.Some? ==>
      && r.user.Some?
      && |r.user.value.orders| == |s.user.value.orders| + 1
      && r.user.value.orders[0] == Order(OrderId(draw), date, s.cart, Subtotal(s.cart), Processing)
      && r.user.value.orders[1..] == s.user.value.orders
      && r.user.value == s.user.value.(orders := r.user.value.orders)
      && r == s.(cart := [], user := r.user, lastOrder := s.cart, lastOrderId := OrderId(draw),
                 orderComplete := true, cartOpen := false, toast := r.toast)
    ensures Valid(s) ==> Valid(r)
  {
    if s.user.None? then s.(cartOpen := false, showAuthModal := true)
    else
      var u := s.user.value;
      var order := Order(OrderId(draw), date, s.cart, Subtotal(s.cart), Processing);
      PrependKeepsConsistent(order, u.orders);
      Show(s.(user := Some(u.(orders := [order] + u.orders)), lastOrder := s.cart, lastOrderId := order.id,
              cart := [], orderComplete := true, cartOpen := false),
           "Order placed successfully!", Success)
  }

  /** A fresh `Processing` order carrying its own subtotal keeps the history
      consistent. */
  lemma PrependKeepsConsistent(order: Order, orders: seq<Order>)
    requires order.total == Subtotal(order.items) && order.status == Processing
    ensures OrdersConsistent(orders) ==> OrdersConsistent([order] + orders)
  {
    if OrdersConsistent(orders) {
      forall i | 0 <= i < |[order] + orders|
        ensures ([order] + orders)[i].total == Subtotal(([order] + orders)[i].items)
      {
        if i > 0 { assert ([order] + orders)[i] == orders[i - 1]; }
      }
    }
  }

  /** The confirmation view's "Back to Shop". */
  function ReturnToShop(s: ShopState): (r: ShopState)
    ensures !r.orderComplete && r == s.(orderComplete := false)
  {
    s.(orderComplete := false)
  }

  /** A signed-in checkout followed by "Back to Shop" lands on the shop with
      an empty cart, the old cart recorded as the newest order, and every
      other part of the profile as before. */
  lemma CheckoutThenReturn(s: ShopState, draw: nat, date: string)
    requires s.user.Some?
    ensures var r := ReturnToShop(Checkout(s, draw, date));
      && !r.orderComplete && r.cart == [] && r.lastOrder == s.cart
      && r.user == Some(s.user.value.(orders := [Order(OrderId(draw), date, s.cart, Subtotal(s.cart), Processing)]
                                                + s.user.value.orders))
  {
    var c := Checkout(s, draw, date);
    assert c.user.value.orders == [c.user.value.orders[0]] + c.user.value.orders[1..];
  }

  // ---------------------------------------------------------------------------
  // Product quick view

  /** JavaScript truthiness of an optional string: absent and empty are false. */
  predicate Chosen(o: Option<string>) {
    o.Some? && o.value != ""
  }

  datatype Selection =
    | Incomplete                        // the inline "select size and colour" hint
    | Ready(size: string, color: string)
    | NoColorFault                      // reading the first colour of a colourless product throws

  /** The quick view's add button: a size is always needed, a colour only when
      the product has colours. The fallback to the first colour is reached only
      when no colour is chosen, which the guard allows only for a colourless
      product, so it never supplies a colour: it faults instead. */
  function ValidateSelection(p: Product, size: Option<string>, color: Option<string>): (r: Selection)
    ensures r.Incomplete? <==> !Chosen(size) || (|p.colors| > 0 && !Chosen(color))
    ensures r.NoColorFault? <==> Chosen(size) && |p.colors| == 0 && !Chosen(color)
    ensures r.Ready? <==> Chosen(size) && Chosen(color)
    ensures r.Ready? ==> r.size == size.value && r.color == color.value
  {
    if !Chosen(size) || (|p.colors| > 0 && !Chosen(color)) then Incomplete
    else if Chosen(color) then Ready(size.value, color.value)
    else NoColorFault
  }

  /** The fault case never arises for the shipped catalogue. */
  lemma CatalogSelectionNeverFaults(p: Product, size: Option<string>, color: Option<string>)
    requires p in Products
    ensures !ValidateSelection(p, size, color).NoColorFault?
    ensures ValidateSelection(p, size, color).Ready? <==> Chosen(size) && Chosen(color)
  {
    CatalogWellFormed();
  }

  /** Add from the quick view: an incomplete selection (or the fault) leaves
      the page as it was; a complete one adds to the cart and closes the view. */
  function QuickViewAdd(s: ShopState, p: Product, size: Option<string>, color: Option<string>): (r: ShopState)
    ensures !ValidateSelection(p, size, color).Ready? ==> r == s
    ensures ValidateSelection(p, size, color).Ready? ==>
      var sel := ValidateSelection(p, size, color);
      r == OnAddToCart(s, p, sel.size, sel.color).(quickView := None)
    ensures Valid(s) ==> Valid(r)
  {
    match ValidateSelection(p, size, color)
    case Ready(sz, c) => OnAddToCart(s, p, sz, c).(quickView := None)
    case _ => s
  }

  /** The category tabs only change which products are listed. */
  function SelectCategory(s: ShopState, f: CategoryFilter): (r: ShopState)
    ensures r == s.(category := f)
    ensures forall p :: p in FilterByCategory(Products, r.category) <==> p in Products && Shows(f, p)
  {
    s.(category := f)
  }
}
